=== FILE: README.md ===
# CustomKitDuels arena catalogue and kit editor, in Dafny

This project models two sequential state machines of the CustomKitDuels
Bukkit plugin and proves properties about them.

1. **The arena catalogue** (`ArenaManager`). It is a map from arena name to
   arena definition, plus a list of the names available for duels. It also
   holds the arenas folder (one `<name>.yml` record per arena) and the
   schematics folder (captured regions, `<schematicName>.schem`). Each
   operation is a pure function from the old catalogue to the new one:
   - loading the folder;
   - `createArena`, `saveArena` and `deleteArena`;
   - the queries;
   - the guarded capture (`generateSchematic`) and restore
     (`regenerateArena`) of an arena's region.

   The central invariant is `ArenaRegistry.Consistent`: a name is in the
   available list exactly when its arena is complete, and no name is listed
   twice.
2. **The kit editor** (`KitEditorGUI`) without its rendering. What remains is:
   - a 41-slot buffer: 36 main slots, 4 armour slots and 1 offhand slot;
   - the flags `isActive`, `isNavigating`, `isBulkMode` and `bulkItem`;
   - the click and close handlers;
   - the packing of the buffer into a 37-entry saved contents array;
   - the static `activeGuis` table that keeps at most one registered editor
     per player.

Files:
- `wrappers.dfy`: `Option` and `Result` types.
- `seqs.dfy`: no-duplicates and `List.remove` on sequences.
- `text.dfy`: `endsWith`, `replace(target, "")` and ASCII lower-casing.
- `arenas.dfy`: the arena record and its derived predicates.
- `arena_records.dfy`: the saved record and the save/load codec.
- `arena_registry.dfy`: the catalogue and its operations.
- `schematics.dfy`: capture and restore.
- `kit_editor.dfy`: the editor buffer, flags and handlers.
- `editor_sessions.dfy`: the `activeGuis` table.

The click filter compares the event's inventory with the editor's, and
that inventory is the top inventory of the clicker's view. A click in the
player's own inventory below therefore passes the filter too, and its slot
index (an index into the player's inventory) then addresses editor slots
0-40. In bulk mode, a click on the player's own hotbar slot 3 writes the bulk
item into kit slot 3. The model keeps this: `ClickEvent.inEditor` is the
top-inventory test, and the slot is used as reported.

Assumptions, because `Arena.java` is not part of this model:
- `isComplete()` means both corners and both spawns are set.
- `isRegenerationReady()` means complete with regeneration switched on. The
  manager checks separately that the schematic file exists.
- `new Arena(name)` sets nothing, leaves regeneration off, and uses the same
  default schematic name as the loader.

Three facts about the code shape the model:
- `createArena` replaces an existing arena of the same name. There is no
  duplicate check.
- `generateSchematic` checks only that the two corners are set. It does not
  check that the arena is complete.
- Nothing allocates or reserves an arena, and nothing checks whether one is
  in use. Two duels can be handed the same arena.

## Model

| member | source | states |
|---|---|---|
| Seqs.RemoveFirst | src/main/java/com/yourname/customkitduels/managers/ArenaManager.java:282 | `List.remove(name)` drops one occurrence only; on a duplicate-free list the name is gone afterwards and the list stays duplicate-free |
| Seqs.RemoveFirstIsListRemove | src/main/java/com/yourname/customkitduels/managers/ArenaManager.java:282 | a list without the name comes back unchanged; otherwise exactly its first occurrence is cut out and the names before and after it keep their order |
| ArenaRecords.ToRecord | src/main/java/com/yourname/customkitduels/managers/ArenaManager.java:105-127 | a position key is written exactly when the position is set; regeneration and schematic name are always written; nothing written is malformed |
| ArenaRecords.FromRecord | src/main/java/com/yourname/customkitduels/managers/ArenaManager.java:60-82 | loading fails exactly when a position value is not a location; regeneration defaults to false, the schematic name to lower-case name + `_arena`; the loaded arena is complete iff all four position keys are present |
| ArenaRecords.RecordRoundTrip | src/main/java/com/yourname/customkitduels/managers/ArenaManager.java:56-127 | loading what `saveArena` wrote reproduces the arena |
| ArenaRecords.EmptyRecordLoadsAsNewArena | src/main/java/com/yourname/customkitduels/managers/ArenaManager.java:81-82 | a record with no keys loads as a fresh arena with the defaults |
| Arenas.NewArena | src/main/java/com/yourname/customkitduels/managers/ArenaManager.java:98-99 | a created arena is incomplete, not ready for regeneration, and has the default schematic name |
| Arenas.SchematicKey | src/main/java/com/yourname/customkitduels/managers/ArenaManager.java:172 | the artifact file is the schematic name followed by `.schem` |
| ArenaRegistry.LoadArena | src/main/java/com/yourname/customkitduels/managers/ArenaManager.java:56-96 | a missing file or a failing cast skips the record and changes nothing; a loaded record replaces the map entry, and the name is appended to the available list when the arena is complete |
| ArenaRegistry.LoadListedFacts | src/main/java/com/yourname/customkitduels/managers/ArenaManager.java:45-51 | the corrected load loop (suffix taken off) keeps the catalogue consistent and loads exactly the loadable records of the files it has visited |
| ArenaRegistry.LoadArenas | src/main/java/com/yourname/customkitduels/managers/ArenaManager.java:40-54 | after a reload the catalogue is consistent; it holds exactly the arenas whose records load, each decoded from its own file; the available list names exactly those that are complete |
| ArenaRegistry.LoadArenasAsWritten | src/main/java/com/yourname/customkitduels/managers/ArenaManager.java:40-54 | the reload as written, which turns a file name into an arena name by removing every `.yml`: it loads exactly the loadable arenas that some listed file is named as, the available list still names exactly the complete loaded arenas, and every loaded arena is decoded from its own record file; it touches only the map and the available list |
| ArenaRegistry.LoadListedAsWrittenKeys | src/main/java/com/yourname/customkitduels/managers/ArenaManager.java:45-51 | the load loop as written goes on past every file: it ends holding the arenas it started with plus every loadable arena that some listed file is named as |
| ArenaRegistry.LoadListedAsWrittenFacts | src/main/java/com/yourname/customkitduels/managers/ArenaManager.java:45-51 | the load loop as written keeps the available list matched to the complete arenas and every arena decoded from its own file, even when a name is loaded twice |
| Text.RemoveAllSuffixOnly | src/main/java/com/yourname/customkitduels/managers/ArenaManager.java:48 | when `.yml` occurs in a file name only as its suffix, `replace(".yml", "")` takes off exactly that suffix |
| ArenaRegistry.LoadArenasAgreeOnPlainNames | src/main/java/com/yourname/customkitduels/managers/ArenaManager.java:45-50 | when no listed file name mentions `.yml` before its suffix, the reload as written gives the corrected result and so is consistent |
| ArenaRegistry.AsWrittenNamesCollide | src/main/java/com/yourname/customkitduels/managers/ArenaManager.java:48 | `a.yml` and `a.yml.yml` both become the arena name `a` |
| ArenaRegistry.LoadArenasAsWrittenListsTwice | src/main/java/com/yourname/customkitduels/managers/ArenaManager.java:45-50 | with those two files the reload as written lists `a` twice |
| ArenaRegistry.DeleteAfterDuplicateLoadLeavesStaleName | src/main/java/com/yourname/customkitduels/managers/ArenaManager.java:244-282 | after that reload, deleting `a` leaves `a` in the available list, and a random pick returns no arena although the list is not empty |
| ArenaRegistry.LoadArenasListsOnce | src/main/java/com/yourname/customkitduels/managers/ArenaManager.java:48 | with only the suffix removed, the same folder lists `a` once |
| ArenaRegistry.SaveArena | src/main/java/com/yourname/customkitduels/managers/ArenaManager.java:129-143 | a failed write changes nothing; a successful write stores the record and leaves the saved name listed iff the arena is complete (on a duplicate-free list); it never adds a duplicate; other names keep their listing |
| ArenaRegistry.EditThenSaveIsConsistent | src/main/java/com/yourname/customkitduels/managers/ArenaManager.java:132-137 | changing a registered arena and then saving it successfully restores the catalogue invariant |
| ArenaRegistry.CreateArena | src/main/java/com/yourname/customkitduels/managers/ArenaManager.java:98-103 | the name is bound to a fresh arena, replacing any existing one; after a successful write it is not available, only its own record file is written, and the catalogue stays consistent; after a failed write the list and folder are unchanged; no other name gains or loses its listing |
| ArenaRegistry.DeleteArena | src/main/java/com/yourname/customkitduels/managers/ArenaManager.java:266-285 | an unknown name returns false and changes nothing; a known name returns true and loses its entry, record file, schematic file and one listing; consistency is preserved |
| ArenaRegistry.GetAvailableArenas | src/main/java/com/yourname/customkitduels/managers/ArenaManager.java:254-256 | in every state the result is the available list itself, duplicates and stale names included; in a consistent catalogue it names every complete arena exactly once |
| ArenaRegistry.GetRandomAvailableArena | src/main/java/com/yourname/customkitduels/managers/ArenaManager.java:244-252 | no arena when the list is empty; otherwise an arena exactly when the picked name is registered, and then the one registered under it; in a consistent catalogue that is always the case and the arena is complete |
| Schematics.GenerateSchematicAsWritten | src/main/java/com/yourname/customkitduels/managers/ArenaManager.java:146-187 | the engine check fails first and the corner check second, each changing nothing; the capture succeeds exactly when both guards pass and the engine completes; it then copies the two corners in the player's world into the arena's `.schem` file; at most that file is added, and a failed copy stores nothing |
| Schematics.GenerateSchematic | src/main/java/com/yourname/customkitduels/managers/ArenaManager.java:146-187 | the same guards in the same order; the capture succeeds exactly when both guards pass and the engine completes; it copies pos1..pos2 in pos1's world into the arena's `.schem` file |
| Schematics.RunCapture | src/main/java/com/yourname/customkitduels/managers/ArenaManager.java:155-186 | a copy failure stores nothing; a write failure leaves the created file behind; both report a generation failure |
| Schematics.RegenerateArena | src/main/java/com/yourname/customkitduels/managers/ArenaManager.java:189-238 | fails with not-ready, then engine-missing, then file-missing, in that order and exactly under those conditions; on success it pastes the arena's `.schem` file anchored at pos1 in pos1's world |
| Schematics.CaptureThenRestore | src/main/java/com/yourname/customkitduels/managers/ArenaManager.java:157-226 | a capture followed by a restore hands the engine the file the capture wrote, the world the capture read, and the capture's first corner as paste anchor |
| Schematics.CaptureAsWrittenRestoresIntoOtherWorld | src/main/java/com/yourname/customkitduels/managers/ArenaManager.java:157-218 | as written, a capture taken while the player stands in another world is restored into a different world |
| Schematics.DeleteThenRestoreMissesArtifact | src/main/java/com/yourname/customkitduels/managers/ArenaManager.java:276-280 | delete removes the file restore looks for, so restoring the deleted definition reports the file missing |
| KitEditor.NewEditor | src/main/java/com/yourname/customkitduels/gui/KitEditorGUI.java:50-60 | the editor starts active, not navigating, not in bulk mode; main slots take the stored contents up to 36 entries, armour slots the first 4 armour entries, offhand contents entry 36; a short armour array fails |
| KitEditor.PackKit | src/main/java/com/yourname/customkitduels/gui/KitEditorGUI.java:480-485 | the saved contents array has 37 entries, main slots then offhand, and the armour is copied |
| KitEditor.SaveKit | src/main/java/com/yourname/customkitduels/gui/KitEditorGUI.java:477-490 | saving hands over the packed kit and ends inactive, not navigating and out of bulk mode, with the buffer kept |
| KitEditor.SaveThenLoadRoundTrip | src/main/java/com/yourname/customkitduels/gui/KitEditorGUI.java:481-485 | opening an editor on a saved kit reproduces all 41 slots |
| KitEditor.LoadThenSaveKeepsLoadedPart | src/main/java/com/yourname/customkitduels/gui/KitEditorGUI.java:54-59 | loading a stored kit and saving it again keeps its first 37 contents entries (padded with empty slots) and its first 4 armour entries |
| KitEditor.IsPlaceholder | src/main/java/com/yourname/customkitduels/gui/KitEditorGUI.java:401-407 | exactly the purple, green and orange stained glass panes count as placeholders; the source's null case is the empty slot `None`, which every caller tests before asking |
| KitEditor.GetCurrentItemInSlot | src/main/java/com/yourname/customkitduels/gui/KitEditorGUI.java:390-399 | slots 0-40 read the buffer in slot order, higher slots read empty, negative slots throw |
| KitEditor.SetSlotItem | src/main/java/com/yourname/customkitduels/gui/KitEditorGUI.java:441-454 | slots 0-40 replace exactly that buffer slot and no flag, higher slots change nothing, negative slots throw |
| KitEditor.GetAfterSet | src/main/java/com/yourname/customkitduels/gui/KitEditorGUI.java:441-454 | a read after a write returns the written item, and every other slot reads as before |
| KitEditor.ClearSlot | src/main/java/com/yourname/customkitduels/gui/KitEditorGUI.java:456-459 | the slot becomes empty and every other slot and flag is unchanged |
| KitEditor.ClearAllSlots | src/main/java/com/yourname/customkitduels/gui/KitEditorGUI.java:461-475 | all 41 slots become empty, bulk mode is off with no bulk item, and activity and navigation are unchanged |
| KitEditor.EnterBulkMode | src/main/java/com/yourname/customkitduels/gui/KitEditorGUI.java:330-337 | bulk mode is on with the given item, and nothing else changes |
| KitEditor.ExitBulkMode | src/main/java/com/yourname/customkitduels/gui/KitEditorGUI.java:339-344 | bulk mode is off with no bulk item, and nothing else changes |
| KitEditor.ForceCleanup | src/main/java/com/yourname/customkitduels/gui/KitEditorGUI.java:429-439 | the editor ends inactive, not navigating and out of bulk mode, and the buffer is kept |
| KitEditor.Navigate | src/main/java/com/yourname/customkitduels/gui/KitEditorGUI.java:346-388 | opening any sub-selector sets navigating, and nothing else changes |
| KitEditor.RefreshAndReopen | src/main/java/com/yourname/customkitduels/gui/KitEditorGUI.java:492-497 | navigation ends, and nothing else changes |
| KitEditor.OpenSlotSelector | src/main/java/com/yourname/customkitduels/gui/KitEditorGUI.java:319-326 | a plain slot click opens the armour selector exactly for slots 36-39, and the category selector otherwise |
| KitEditor.SlotClick | src/main/java/com/yourname/customkitduels/gui/KitEditorGUI.java:279-327 | in bulk mode, main slots receive the bulk item, slots 36-40 are refused without change, and a negative slot throws without change; otherwise a shift-click on a real item enters bulk mode with it, a shift-click on an empty or placeholder main slot opens the bulk selector, a right-click on a real item opens its modification menu, and every other click opens the slot's selector; shift- and right-clicks on a negative slot throw; only bulk placement changes the buffer |
| KitEditor.OnInventoryClick | src/main/java/com/yourname/customkitduels/gui/KitEditorGUI.java:226-328 | a click is ignored exactly when it is not this player's click while this editor is the top inventory of the view (a click in the player's own inventory below passes too), or the editor is inactive or navigating; a handled click on slot 45 saves the packed kit and cleans up, on 53 cleans up, on 49 clears all slots; on 47 a right-click in bulk mode leaves bulk mode, a left-click or any click outside bulk mode opens the bulk selector, and other clicks do nothing; slots up to 40 go to the slot handler, other slots do nothing; only bulk placement and clear-all change the buffer; only save and cancel deactivate |
| KitEditor.OnInventoryClose | src/main/java/com/yourname/customkitduels/gui/KitEditorGUI.java:409-427 | cleanup is scheduled exactly for this player's close of this editor while active and not navigating |
| KitEditor.DelayedCleanup | src/main/java/com/yourname/customkitduels/gui/KitEditorGUI.java:419-424 | the delayed task cleans up only if the editor is still active and not navigating when it runs |
| EditorSessions.CreateEditor | src/main/java/com/yourname/customkitduels/gui/KitEditorGUI.java:39-64 | a new editor joins the editors without being registered, and the session invariant is kept |
| EditorSessions.Cleanup | src/main/java/com/yourname/customkitduels/gui/KitEditorGUI.java:429-439 | after cleanup the editor is inactive and not navigating, its player has no registration, and the invariant is kept |
| EditorSessions.Open | src/main/java/com/yourname/customkitduels/gui/KitEditorGUI.java:210-224 | the editor becomes its player's registered, active, non-navigating editor with its buffer kept; a different editor registered before is cleaned up; every other editor is unchanged; only this player's registration changes; the invariant is kept |
| EditorSessions.Click | src/main/java/com/yourname/customkitduels/gui/KitEditorGUI.java:261-271 | saving or cancelling unregisters the player, any other click leaves the table alone, and the invariant is kept |
| EditorSessions.CloseCleanup | src/main/java/com/yourname/customkitduels/gui/KitEditorGUI.java:417-425 | the delayed close cleanup resets an active, non-navigating editor and removes only its player's registration, every other editor unchanged; otherwise it changes nothing |
| EditorSessions.CreateLeavesTwoActiveEditors | src/main/java/com/yourname/customkitduels/gui/KitEditorGUI.java:34-64 | constructing a second editor for a player whose first editor is registered leaves that player with two active editors; only the registered one is unique |
| EditorSessions.Refresh | src/main/java/com/yourname/customkitduels/gui/KitEditorGUI.java:492-497 | refreshing ends navigation without touching the registrations, and the invariant is kept |
| EditorSessions.NavigationCloseKeepsEditor | src/main/java/com/yourname/customkitduels/gui/KitEditorGUI.java:417-424 | closing the editor's screen while navigating schedules no cleanup, and the delayed task changes nothing |

## Findings

| source | as written | input that shows it | evidently intended | confidence | as-written member | corrected member |
|---|---|---|---|---|---|---|
| src/main/java/com/yourname/customkitduels/managers/ArenaManager.java:48 | `file.getName().replace(".yml", "")` removes every `.yml` in the file name, not only the extension | arenas folder holding `a.yml` (complete) and `a.yml.yml`: both load as `a`, so `a` is listed twice; after `deleteArena("a")` the name `a` is still listed, and a random pick can return no arena | drop only the `.yml` suffix, so that each file loads under its own name and no name is listed twice | medium, not executed | ArenaRegistry.LoadArenasAsWritten, ArenaRegistry.LoadArenasAsWrittenListsTwice | ArenaRegistry.LoadArenas, ArenaRegistry.LoadListed, ArenaRegistry.LoadListedFacts |
| src/main/java/com/yourname/customkitduels/managers/ArenaManager.java:157 | the capture region is taken in the world of the player who runs the command, while the restore (line 218) pastes into the world of the arena's first corner | an arena whose corners are in world `arena`, captured by a player standing in world `lobby`: the `lobby` terrain is pasted into `arena` | take the capture region in the world of the first corner | low, not executed | Schematics.GenerateSchematicAsWritten, Schematics.CaptureAsWrittenRestoresIntoOtherWorld | Schematics.GenerateSchematic, Schematics.CaptureThenRestore |

## Left out

- YAML parsing and writing, folder creation and the file existence checks. The arenas folder is a map from file name to a typed record. A file that does not parse is the record with no keys, which is what `YamlConfiguration.loadConfiguration` yields. Deleting a record or schematic file always succeeds.
- `config.getString` on a value that is not a string: the record keeps the string form directly.
- `config.getBoolean` on a value that is not a boolean: the record shows it as missing, and both cases fall back to false.
- The FastAsyncWorldEdit calls: clipboard copy, schematic writer and reader, edit session and paste. They are foreign-library operations. The model keeps what the engine is asked to do (`Capture`, `Paste`) and whether it fails (`EngineRun`, `pasteOk`).
- `java.util.Random`: the random index is a parameter.
- Bukkit plumbing: scheduler delays, event registration and unregistration, `openInventory`/`closeInventory`, chat messages and logging. The 5-tick delayed cleanup is a separate step (`KitEditor.DelayedCleanup`, `EditorSessions.CloseCleanup`), so other steps can run in between.
- The event bus delivers every click to every registered editor. The model delivers one event to one editor. The identity filter is kept in `KitEditor.Handles`.
- `event.setCancelled(true)`: it coincides with the click not being `Ignored`.
- `setupGUI`, `updateSlot` and `setupControlButtons`: inventory rendering only.
- `CategorySelectorGUI` and the other sub-selectors. They are presentation and navigation screens that call back into `setSlotItem` and `refreshAndReopen`.
- `RoundsDuelRequest`: an inert value object whose only behaviour reads the wall clock.
- Allocation, reservation, degraded arenas and concurrency: none of them exists in the code.
- `getAllArenas`, `getArena`, `hasArena` and `isActive()`: plain getters and map lookups. The other members use them (`ArenaRegistry.GetArena`, `ArenaRegistry.HasArena`). `setBulkItem(item)` is `KitEditor.EnterBulkMode`.
- `KitEditor.EnterBulkMode`: it takes a non-null item. `setBulkItem(null)` would throw at `item.clone()`, and that path is not modelled.
- `Arenas.DefaultSchematicName`: lower-casing covers ASCII letters only. Java's locale-aware `toLowerCase` is not modelled.
- Location coordinates are integers rather than doubles. They are only stored, compared and handed to the engine.
- `ItemStack.clone()`: items are values, so a clone is the same value.
- `KitEditor.SaveThenLoadRoundTrip` and `KitEditor.LoadThenSaveKeepsLoadedPart` relate the kit handed to the kit store with the kit an editor is opened on. They mean "save, then reopen" only if the kit store (`KitManager.saveKit`/`getKit`, which is not part of this model) hands back the kit it was given.
- `Schematics.Capture`: records the two corners as handed to the engine. How the engine places the copied region (relative to its minimum corner) and where the paste anchor (the first corner) puts it back are engine geometry and are not modelled.
- `EditorSessions.Open`: only registered editors are unique per player. Every editor starts out active, so a player can hold two active editors between constructing a second one and opening it (`EditorSessions.CreateLeavesTwoActiveEditors`).

=== FILE: arena_records.dfy ===
/** The per-arena record in the arenas folder (`<name>.yml`), seen as a typed
    key/value record: what `saveArena` writes and what `loadArena` reads back. */
module ArenaRecords {
  import opened Wrappers
  import opened Arenas

  /** A position key of the record: missing, holding a location, or holding a
      value that is not a location (the `(Location)` cast throws on it). */
  datatype Field<T> = Absent | Present(value: T) | Malformed

  /** `regeneration` is `None` when the key is missing or not a boolean, which
      is when `getBoolean(key, false)` falls back to its default; `schematicName`
      is `None` when the key is missing and otherwise its string form. */
  datatype Record = Record(
    pos1: Field<Location>,
    pos2: Field<Location>,
    spawn1: Field<Location>,
    spawn2: Field<Location>,
    regeneration: Option<bool>,
    schematicName: Option<string>)

  /** The record of a file that holds no keys at all. */
  const EmptyRecord := Record(Absent, Absent, Absent, Absent, None, None)

  /** The key whose cast failed while an arena was being read. */
  datatype LoadError = NotALocation(key: string)

  predicate HasMalformedPosition(rec: Record) {
    rec.pos1.Malformed? || rec.pos2.Malformed? || rec.spawn1.Malformed? || rec.spawn2.Malformed?
  }

  /** A position key is written only when the position is set. */
  function PositionField(p: Option<Location>): (f: Field<Location>)
    ensures f.Present? <==> p.Some?
    ensures !f.Malformed?
    ensures f.Present? ==> f.value == p.value
  {
    match p
    case Some(l) => Present(l)
    case None => Absent
  }

  function ReadPosition(f: Field<Location>): Option<Location>
    requires !f.Malformed?
  {
    match f
    case Present(l) => Some(l)
    case Absent => None
  }

  /** The record `saveArena` writes for an arena. */
  function ToRecord(a: Arena): (r: Record)
    ensures !HasMalformedPosition(r)
    ensures r.pos1.Present? <==> a.pos1.Some?
    ensures r.pos2.Present? <==> a.pos2.Some?
    ensures r.spawn1.Present? <==> a.spawn1.Some?
    ensures r.spawn2.Present? <==> a.spawn2.Some?
    ensures r.regeneration.Some? && r.schematicName.Some?
  {
    Record(PositionField(a.pos1), PositionField(a.pos2),
           PositionField(a.spawn1), PositionField(a.spawn2),
           Some(a.regeneration), Some(a.schematicName))
  }

  /** The body of `loadArena` once the file is open: the positions are cast in
      the order pos1, pos2, spawn1, spawn2 and the first failing cast abandons
      the arena; regeneration defaults to false and the schematic name to the
      lower-cased arena name followed by `_arena`. */
  function FromRecord(name: string, rec: Record): (r: Result<Arena, LoadError>)
    ensures r.Failure? <==> HasMalformedPosition(rec)
    ensures r.Failure? && rec.pos1.Malformed? ==> r.error == NotALocation("pos1")
    ensures r.Success? ==> r.value.name == name
    ensures r.Success? ==> (r.value.regeneration <==> rec.regeneration == Some(true))
    ensures r.Success? && rec.schematicName.None? ==> r.value.schematicName == DefaultSchematicName(name)
    ensures r.Success? && rec.schematicName.Some? ==> r.value.schematicName == rec.schematicName.value
    ensures r.Success? ==> (IsComplete(r.value) <==>
      rec.pos1.Present? && rec.pos2.Present? && rec.spawn1.Present? && rec.spawn2.Present?)
  {
    if rec.pos1.Malformed? then Failure(NotALocation("pos1"))
    else if rec.pos2.Malformed? then Failure(NotALocation("pos2"))
    else if rec.spawn1.Malformed? then Failure(NotALocation("spawn1"))
    else if rec.spawn2.Malformed? then Failure(NotALocation("spawn2"))
    else
      Success(Arena(name,
        ReadPosition(rec.pos1), ReadPosition(rec.pos2),
        ReadPosition(rec.spawn1), ReadPosition(rec.spawn2),
        rec.regeneration.GetOr(false),
        rec.schematicName.GetOr(DefaultSchematicName(name))))
  }

  /** Saving an arena and loading it back under its own name gives the same arena. */
  lemma RecordRoundTrip(a: Arena)
    ensures FromRecord(a.name, ToRecord(a)) == Success(a)
  {
  }

  /** An empty file loads as the arena `new Arena(name)` would create. */
  lemma EmptyRecordLoadsAsNewArena(name: string)
    ensures FromRecord(name, EmptyRecord) == Success(NewArena(name))
  {
  }
}

=== FILE: arena_registry.dfy ===
/** `ArenaManager`'s catalogue: the map from name to arena, the list of names
    available for duels, the arenas folder (one record file per arena) and the
    schematics folder (a set of artifact file names). Every operation is a
    function from the old state to the new one. */
module ArenaRegistry {
  import opened Wrappers
  import opened Seqs
  import opened Text
  import opened Arenas
  import opened ArenaRecords

  datatype Registry = Registry(
    arenas: map<string, Arena>,
    available: seq<string>,
    files: map<string, Record>,
    schematics: set<string>)

  /** The available list names exactly the complete arenas of the map. */
  predicate AvailableMatchesComplete(s: Registry) {
    && (forall i :: 0 <= i < |s.available| ==>
          s.available[i] in s.arenas && IsComplete(s.arenas[s.available[i]]))
    && (forall n :: n in s.arenas && IsComplete(s.arenas[n]) ==> n in s.available)
  }

  /** The catalogue invariant: available iff complete, and no name listed twice. */
  predicate Consistent(s: Registry) {
    NoDuplicates(s.available) && AvailableMatchesComplete(s)
  }

  /** The arenas folder holds a record for `name` whose positions all cast. */
  predicate Loadable(files: map<string, Record>, name: string) {
    RecordFileName(name) in files && !HasMalformedPosition(files[RecordFileName(name)])
  }

  /** The arena the record file of `name` decodes to. */
  function Decoded(files: map<string, Record>, name: string): (a: Arena)
    requires Loadable(files, name)
    ensures a.name == name
    ensures FromRecord(name, files[RecordFileName(name)]) == Success(a)
  {
    FromRecord(name, files[RecordFileName(name)]).value
  }

  // ---------------------------------------------------------------------------
  // Loading

  /** `loadArena(name)`: a missing file or a record whose position cast fails
      leaves the catalogue as it was; otherwise the decoded arena is put under
      its name and the name is appended to the available list when complete. */
  function LoadArena(s: Registry, name: string): (r: Registry)
    ensures r.files == s.files && r.schematics == s.schematics
    ensures !Loadable(s.files, name) ==> r == s
    ensures Loadable(s.files, name) ==>
      && r.arenas == s.arenas[name := Decoded(s.files, name)]
      && r.available == (if IsComplete(Decoded(s.files, name)) then s.available + [name] else s.available)
  {
    if RecordFileName(name) !in s.files then s
    else
      match FromRecord(name, s.files[RecordFileName(name)])
      case Failure(_) => s
      case Success(a) =>
        s.(arenas := s.arenas[name := a],
           available := if IsComplete(a) then s.available + [name] else s.available)
  }

  /** The listing of the arenas folder: every file once, in some order. */
  predicate IsListing(listing: seq<string>, files: map<string, Record>) {
    && NoDuplicates(listing)
    && (forall f :: f in files ==> f in listing)
    && (forall f :: f in listing ==> f in files)
  }

  /** The arena name of a record file: its name without the `.yml` suffix. */
  function ArenaNameOf(fileName: string): (name: string)
    requires EndsWith(fileName, ".yml")
    ensures RecordFileName(name) == fileName
  {
    fileName[..|fileName| - 4]
  }

  lemma ArenaNameOfRecordFile(name: string)
    ensures ArenaNameOf(RecordFileName(name)) == name
  {
  }

  /** The loop of `loadArenas` over the listed files, with the file-to-name step
      taking off the `.yml` suffix. */
  function LoadListed(s: Registry, listing: seq<string>): (r: Registry)
    ensures r.files == s.files && r.schematics == s.schematics
    decreases |listing|
  {
    if |listing| == 0 then s
    else
      var s' := if EndsWith(listing[0], ".yml") then LoadArena(s, ArenaNameOf(listing[0])) else s;
      LoadListed(s', listing[1..])
  }

  /** What the load loop has established about the catalogue it has built. */
  predicate LoadedFrom(s: Registry, files: map<string, Record>) {
    forall n :: n in s.arenas ==> Loadable(files, n) && s.arenas[n] == Decoded(files, n)
  }

  lemma {:induction false} LoadListedFacts(s: Registry, listing: seq<string>)
    requires Consistent(s) && LoadedFrom(s, s.files)
    requires NoDuplicates(listing)
    requires forall i :: 0 <= i < |listing| && EndsWith(listing[i], ".yml") ==>
      ArenaNameOf(listing[i]) !in s.arenas
    ensures Consistent(LoadListed(s, listing))
    ensures LoadedFrom(LoadListed(s, listing), s.files)
    ensures forall n :: n in LoadListed(s, listing).arenas <==>
      n in s.arenas || (Loadable(s.files, n) && RecordFileName(n) in listing)
    decreases |listing|
  {
    if |listing| > 0 {
      var f := listing[0];
      var s' := if EndsWith(f, ".yml") then LoadArena(s, ArenaNameOf(f)) else s;
      if EndsWith(f, ".yml") {
        var name := ArenaNameOf(f);
        assert name !in s.arenas;
        if Loadable(s.files, name) {
          assert name !in s.available;
          forall i, j | 0 <= i < j < |s'.available| ensures s'.available[i] != s'.available[j] {
            if j == |s.available| {
              assert s'.available[j] == name;
            }
          }
        }
        assert Consistent(s');
      }
      HeadNotInTail(listing);
      forall i | 0 <= i < |listing[1..]| && EndsWith(listing[1..][i], ".yml")
        ensures ArenaNameOf(listing[1..][i]) !in s'.arenas
      {
        assert listing[1..][i] == listing[i + 1];
      }
      LoadListedFacts(s', listing[1..]);
      forall n | Loadable(s.files, n) && RecordFileName(n) in listing
        ensures n in LoadListed(s, listing).arenas
      {
        if RecordFileName(n) == f {
          ArenaNameOfRecordFile(n);
        } else {
          assert RecordFileName(n) in listing[1..];
        }
      }
    }
  }

  /** `loadArenas`: empties the map and the available list, then loads every
      listed `.yml` file. The result is consistent and holds exactly the
      arenas whose records load. */
  function LoadArenas(s: Registry, listing: seq<string>): (r: Registry)
    requires IsListing(listing, s.files)
    ensures r.files == s.files && r.schematics == s.schematics
    ensures Consistent(r)
    ensures forall n :: n in r.arenas <==> Loadable(s.files, n)
    ensures forall n :: n in r.arenas ==> r.arenas[n] == Decoded(s.files, n)
    ensures forall n :: n in r.available <==> Loadable(s.files, n) && IsComplete(Decoded(s.files, n))
  {
    var empty := Registry(map[], [], s.files, s.schematics);
    LoadListedFacts(empty, listing);
    LoadListed(empty, listing)
  }

  // ---------------------------------------------------------------------------
  // Loading as written: the file name goes through `replace(".yml", "")`

  /** The file-to-name step as written: every occurrence of `.yml` is removed,
      not only the suffix. */
  function ArenaNameAsWritten(fileName: string): string {
    RemoveAll(fileName, ".yml")
  }

  function LoadListedAsWritten(s: Registry, listing: seq<string>): (r: Registry)
    ensures r.files == s.files && r.schematics == s.schematics
    decreases |listing|
  {
    if |listing| == 0 then s
    else
      var s' := if EndsWith(listing[0], ".yml") then LoadArena(s, ArenaNameAsWritten(listing[0])) else s;
      LoadListedAsWritten(s', listing[1..])
  }

  /** One `loadArena` keeps the available list matched to the complete arenas
      and every arena decoded from its own file, even when the name is loaded
      a second time: the same file gives the same arena. */
  lemma LoadArenaKeepsMatch(s: Registry, name: string)
    requires AvailableMatchesComplete(s) && LoadedFrom(s, s.files)
    ensures AvailableMatchesComplete(LoadArena(s, name)) && LoadedFrom(LoadArena(s, name), s.files)
  {
    if Loadable(s.files, name) {
      var r := LoadArena(s, name);
      assert name in s.arenas ==> s.arenas[name] == Decoded(s.files, name);
      forall i | 0 <= i < |r.available|
        ensures r.available[i] in r.arenas && IsComplete(r.arenas[r.available[i]])
      {
        if i < |s.available| {
          assert r.available[i] == s.available[i];
        }
      }
    }
  }

  /** The load loop as written keeps the available list matched to the
      complete arenas, and every arena it loads is decoded from its own file;
      only the no-duplicates half of the invariant is lost. */
  lemma {:induction false} LoadListedAsWrittenFacts(s: Registry, listing: seq<string>)
    requires AvailableMatchesComplete(s) && LoadedFrom(s, s.files)
    ensures AvailableMatchesComplete(LoadListedAsWritten(s, listing))
    ensures LoadedFrom(LoadListedAsWritten(s, listing), s.files)
    decreases |listing|
  {
    if |listing| > 0 {
      var f := listing[0];
      if EndsWith(f, ".yml") {
        LoadArenaKeepsMatch(s, ArenaNameAsWritten(f));
        LoadListedAsWrittenFacts(LoadArena(s, ArenaNameAsWritten(f)), listing[1..]);
      } else {
        LoadListedAsWrittenFacts(s, listing[1..]);
      }
    }
  }

  /** Some listed record file turns into the arena name `n` under the
      file-to-name step as written. */
  predicate NamedAsWritten(listing: seq<string>, n: string) {
    exists i :: 0 <= i < |listing| && EndsWith(listing[i], ".yml") && ArenaNameAsWritten(listing[i]) == n
  }

  /** Naming by the whole listing splits into naming by its head and by its tail. */
  lemma NamedAsWrittenSplit(listing: seq<string>, n: string)
    requires |listing| > 0
    ensures NamedAsWritten(listing, n) <==>
      (EndsWith(listing[0], ".yml") && ArenaNameAsWritten(listing[0]) == n) || NamedAsWritten(listing[1..], n)
  {
    if NamedAsWritten(listing[1..], n) {
      var i :| 0 <= i < |listing[1..]| && EndsWith(listing[1..][i], ".yml") && ArenaNameAsWritten(listing[1..][i]) == n;
      assert listing[i + 1] == listing[1..][i];
    }
    if NamedAsWritten(listing, n) {
      var i :| 0 <= i < |listing| && EndsWith(listing[i], ".yml") && ArenaNameAsWritten(listing[i]) == n;
      if i > 0 {
        assert listing[1..][i - 1] == listing[i];
      }
    }
  }

  /** The load loop as written keeps going past every record: it ends up
      holding the arenas it started with and every loadable arena that some
      listed file is named as. */
  lemma {:induction false} LoadListedAsWrittenKeys(s: Registry, listing: seq<string>)
    ensures forall n :: n in LoadListedAsWritten(s, listing).arenas <==>
      n in s.arenas || (Loadable(s.files, n) && NamedAsWritten(listing, n))
    decreases |listing|
  {
    if |listing| > 0 {
      var f := listing[0];
      var s' := if EndsWith(f, ".yml") then LoadArena(s, ArenaNameAsWritten(f)) else s;
      LoadListedAsWrittenKeys(s', listing[1..]);
      forall n ensures n in LoadListedAsWritten(s, listing).arenas <==>
        n in s.arenas || (Loadable(s.files, n) && NamedAsWritten(listing, n))
      {
        NamedAsWrittenSplit(listing, n);
      }
    }
  }

  /** `loadArenas` as written: it loads exactly the loadable arenas some listed
      file is named as, the available list names exactly the complete loaded
      arenas, each decoded from its own file, but a name can be listed more
      than once. */
  function LoadArenasAsWritten(s: Registry, listing: seq<string>): (r: Registry)
    requires IsListing(listing, s.files)
    ensures r.files == s.files && r.schematics == s.schematics
    ensures forall n :: n in r.arenas <==> Loadable(s.files, n) && NamedAsWritten(listing, n)
    ensures AvailableMatchesComplete(r)
    ensures LoadedFrom(r, s.files)
  {
    var empty := Registry(map[], [], s.files, s.schematics);
    LoadListedAsWrittenFacts(empty, listing);
    LoadListedAsWrittenKeys(empty, listing);
    LoadListedAsWritten(empty, listing)
  }

  /** No listed record file mentions `.yml` before its suffix. */
  predicate PlainFileNames(listing: seq<string>) {
    forall i :: 0 <= i < |listing| && EndsWith(listing[i], ".yml") ==> OnlyAtEnd(listing[i], ".yml")
  }

  /** On such a listing the loop as written and the corrected loop agree. */
  lemma {:induction false} LoadListedAgrees(s: Registry, listing: seq<string>)
    requires PlainFileNames(listing)
    ensures LoadListedAsWritten(s, listing) == LoadListed(s, listing)
    decreases |listing|
  {
    if |listing| > 0 {
      var f := listing[0];
      if EndsWith(f, ".yml") {
        RemoveAllSuffixOnly(f, ".yml");
        assert ArenaNameAsWritten(f) == ArenaNameOf(f);
      }
      assert PlainFileNames(listing[1..]) by {
        forall i | 0 <= i < |listing[1..]| && EndsWith(listing[1..][i], ".yml")
          ensures OnlyAtEnd(listing[1..][i], ".yml")
        {
          assert listing[1..][i] == listing[i + 1];
        }
      }
      var s' := if EndsWith(f, ".yml") then LoadArena(s, ArenaNameOf(f)) else s;
      LoadListedAgrees(s', listing[1..]);
    }
  }

  /** When no file name mentions `.yml` before its suffix, `loadArenas` as
      written gives the corrected result, so it is consistent there. */
  lemma LoadArenasAgreeOnPlainNames(s: Registry, listing: seq<string>)
    requires IsListing(listing, s.files) && PlainFileNames(listing)
    ensures LoadArenasAsWritten(s, listing) == LoadArenas(s, listing)
    ensures Consistent(LoadArenasAsWritten(s, listing))
  {
    LoadListedAgrees(Registry(map[], [], s.files, s.schematics), listing);
  }

  /** A complete arena record, used in the example below. */
  const SampleComplete := Record(
    Present(Location("world", 0, 0, 0)), Present(Location("world", 0, 0, 0)),
    Present(Location("world", 0, 0, 0)), Present(Location("world", 0, 0, 0)), None, None)

  /** The arenas folder of the example: `a.yml` and `a.yml.yml`. */
  const SampleFolder := Registry(map[], [], map["a.yml" := SampleComplete, "a.yml.yml" := EmptyRecord], {})

  const SampleListing := ["a.yml", "a.yml.yml"]

  /** `a.yml` and `a.yml.yml` both turn into the arena name `a`. */
  lemma AsWrittenNamesCollide()
    ensures ArenaNameAsWritten("a.yml") == "a" && ArenaNameAsWritten("a.yml.yml") == "a"
  {
    assert StartsWith(".yml", ".yml");
    assert RemoveAll("", ".yml") == "";
    assert RemoveAll(".yml", ".yml") == "";
    assert RemoveAll(".yml.yml", ".yml") == "";
    assert !StartsWith("a.yml", ".yml");
    assert !StartsWith("a.yml.yml", ".yml");
  }

  /** How the two files of the example decode. */
  lemma SampleRecords()
    ensures RecordFileName("a") == "a.yml" && RecordFileName("a.yml") == "a.yml.yml"
    ensures Loadable(SampleFolder.files, "a") && IsComplete(Decoded(SampleFolder.files, "a"))
    ensures Loadable(SampleFolder.files, "a.yml") && !IsComplete(Decoded(SampleFolder.files, "a.yml"))
    ensures EndsWith("a.yml", ".yml") && EndsWith("a.yml.yml", ".yml")
  {
    assert RecordFileName("a") == "a.yml";
    assert RecordFileName("a.yml") == "a.yml.yml";
    assert "a.yml" in SampleFolder.files && "a.yml.yml" in SampleFolder.files;
    assert !HasMalformedPosition(SampleComplete) && !HasMalformedPosition(EmptyRecord);
  }

  /** The catalogue `loadArenas` starts from on the example folder. */
  const SampleStart := Registry(map[], [], SampleFolder.files, {})

  /** Loading `a` from the example folder lists it. */
  lemma SampleFirstLoad()
    ensures LoadArena(SampleStart, "a").available == ["a"]
  {
    SampleRecords();
  }

  /** Loading `a` a second time lists it again. */
  lemma SampleSecondLoad()
    ensures LoadArena(LoadArena(SampleStart, "a"), "a").available == ["a", "a"]
  {
    SampleRecords();
    SampleFirstLoad();
  }

  /** As written, the loop over the example listing loads `a` twice. */
  lemma SampleRunAsWritten()
    ensures LoadListedAsWritten(SampleStart, SampleListing) == LoadArena(LoadArena(SampleStart, "a"), "a")
  {
    AsWrittenNamesCollide();
    SampleRecords();
    var s1 := LoadArena(SampleStart, "a");
    var s2 := LoadArena(s1, "a");
    assert LoadListedAsWritten(s1, ["a.yml.yml"]) == LoadListedAsWritten(s2, []);
    assert LoadListedAsWritten(SampleStart, SampleListing) == LoadListedAsWritten(s1, ["a.yml.yml"]) by {
      assert SampleListing[0] == "a.yml" && SampleListing[1..] == ["a.yml.yml"];
    }
  }

  /** The example listing lists the example folder. */
  lemma SampleIsListing()
    ensures IsListing(SampleListing, SampleFolder.files)
  {
    assert SampleFolder.files.Keys == {"a.yml", "a.yml.yml"};
  }

  /** With the files `a.yml` (a complete arena) and `a.yml.yml`, both files
      load under the name `a`, so `a` is listed twice. */
  lemma LoadArenasAsWrittenListsTwice()
    ensures IsListing(SampleListing, SampleFolder.files)
    ensures LoadArenasAsWritten(SampleFolder, SampleListing).available == ["a", "a"]
    ensures !NoDuplicates(LoadArenasAsWritten(SampleFolder, SampleListing).available)
  {
    SampleIsListing();
    SampleRunAsWritten();
    SampleSecondLoad();
    assert LoadArenasAsWritten(SampleFolder, SampleListing) == LoadListedAsWritten(SampleStart, SampleListing);
    var avail := LoadArenasAsWritten(SampleFolder, SampleListing).available;
    assert avail[0] == avail[1];
  }

  /** After that load, deleting `a` removes one copy only and a random pick
      can land on a name that has no arena. */
  lemma DeleteAfterDuplicateLoadLeavesStaleName()
    ensures
      var d := DeleteArena(LoadArenasAsWritten(SampleFolder, SampleListing), "a").0;
      d.available == ["a"] && "a" !in d.arenas && GetRandomAvailableArena(d, 0).None?
  {
    LoadArenasAsWrittenListsTwice();
    SampleRecords();
    var r := LoadArenasAsWritten(SampleFolder, SampleListing);
    assert "a" in r.arenas by {
      assert "a" in r.available;
    }
  }

  /** Loading the same folder with the suffix taken off lists `a` once; the
      second file becomes an incomplete arena called `a.yml`. */
  lemma LoadArenasListsOnce()
    ensures LoadArenas(SampleFolder, SampleListing).available == ["a"]
  {
    SampleRecords();
    assert IsListing(SampleListing, SampleFolder.files);
    var empty := Registry(map[], [], SampleFolder.files, {});
    assert ArenaNameOf("a.yml") == "a";
    assert ArenaNameOf("a.yml.yml") == "a.yml";
    var s1 := LoadArena(empty, "a");
    assert s1.available == ["a"];
    var s2 := LoadArena(s1, "a.yml");
    assert s2.available == ["a"];
    assert LoadListed(s2, []) == s2;
    assert LoadListed(s1, SampleListing[1..]) == s2;
    assert LoadListed(empty, SampleListing) == s2;
  }

  // ---------------------------------------------------------------------------
  // Saving, creating, deleting

  /** `saveArena(a)`: when the file write succeeds, the record is stored and
      the name is added to or removed from the available list so that it is
      listed exactly when the arena is complete; when the write fails, nothing
      changes. The map itself is never touched: callers change the registered
      arena object before saving it. */
  function SaveArena(s: Registry, a: Arena, writeOk: bool): (r: Registry)
    ensures r.arenas == s.arenas && r.schematics == s.schematics
    ensures !writeOk ==> r == s
    ensures writeOk ==> r.files == s.files[RecordFileName(a.name) := ToRecord(a)]
    ensures writeOk && NoDuplicates(s.available) ==> (a.name in r.available <==> IsComplete(a))
    ensures forall n :: n != a.name ==> (n in r.available <==> n in s.available)
    ensures NoDuplicates(s.available) ==> NoDuplicates(r.available)
  {
    if !writeOk then s
    else
      var available :=
        if IsComplete(a) && a.name !in s.available then s.available + [a.name]
        else if !IsComplete(a) && a.name in s.available then
          RemoveFirstKeepsOthers(s.available, a.name);
          RemoveFirst(s.available, a.name)
        else s.available;
      s.(files := s.files[RecordFileName(a.name) := ToRecord(a)], available := available)
  }

  /** A caller that changes the registered arena (through the reference
      `getArena` hands out) and then saves it successfully leaves the
      catalogue consistent again. */
  lemma EditThenSaveIsConsistent(s: Registry, a: Arena)
    requires Consistent(s)
    requires a.name in s.arenas
    ensures Consistent(SaveArena(s.(arenas := s.arenas[a.name := a]), a, true))
  {
    var s1 := s.(arenas := s.arenas[a.name := a]);
    var r := SaveArena(s1, a, true);
    forall i | 0 <= i < |r.available|
      ensures r.available[i] in r.arenas && IsComplete(r.arenas[r.available[i]])
    {
      var n := r.available[i];
      assert n in r.available;
      if n != a.name {
        assert n in s.available;
      }
    }
  }

  /** `createArena(name)`: puts a fresh arena under the name, replacing any
      arena already there, and saves it. */
  function CreateArena(s: Registry, name: string, writeOk: bool): (r: Registry)
    ensures r.arenas == s.arenas[name := NewArena(name)]
    ensures r.schematics == s.schematics
    ensures writeOk ==> RecordFileName(name) in r.files && r.files[RecordFileName(name)] == ToRecord(NewArena(name))
    ensures writeOk && NoDuplicates(s.available) ==> name !in r.available
    ensures !writeOk ==> r.available == s.available && r.files == s.files
    ensures writeOk && Consistent(s) ==> Consistent(r)
    ensures writeOk ==> r.files == s.files[RecordFileName(name) := ToRecord(NewArena(name))]
    ensures forall n :: n != name ==> (n in r.available <==> n in s.available)
  {
    var s1 := s.(arenas := s.arenas[name := NewArena(name)]);
    var r := SaveArena(s1, NewArena(name), writeOk);
    if writeOk && Consistent(s) then
      CreateKeepsConsistent(s, name);
      r
    else r
  }

  lemma CreateKeepsConsistent(s: Registry, name: string)
    requires Consistent(s)
    ensures Consistent(SaveArena(s.(arenas := s.arenas[name := NewArena(name)]), NewArena(name), true))
  {
    var s1 := s.(arenas := s.arenas[name := NewArena(name)]);
    if name !in s.arenas {
      assert name !in s.available;
      assert Consistent(s1);
    } else {
      EditThenSaveIsConsistent(s, NewArena(name));
    }
  }

  /** `deleteArena(name)`: an unknown name answers false and changes nothing;
      a known name answers true and loses its map entry, its record file, the
      schematic file its arena names, and its place in the available list. */
  function DeleteArena(s: Registry, name: string): (r: (Registry, bool))
    ensures name !in s.arenas <==> !r.1
    ensures !r.1 ==> r.0 == s
    ensures r.1 ==> r.0.arenas == s.arenas - {name}
    ensures r.1 ==> r.0.files == s.files - {RecordFileName(name)}
    ensures r.1 ==> r.0.schematics == s.schematics - {SchematicKey(s.arenas[name])}
    ensures r.1 ==> multiset(r.0.available) == multiset(s.available) - multiset{name}
    ensures r.1 && NoDuplicates(s.available) ==> name !in r.0.available
    ensures Consistent(s) ==> Consistent(r.0)
  {
    if name !in s.arenas then (s, false)
    else
      var a := s.arenas[name];
      var r := Registry(s.arenas - {name}, RemoveFirst(s.available, name),
                        s.files - {RecordFileName(name)}, s.schematics - {SchematicKey(a)});
      if Consistent(s) then
        DeleteKeepsConsistent(s, name);
        (r, true)
      else (r, true)
  }

  lemma DeleteKeepsConsistent(s: Registry, name: string)
    requires Consistent(s) && name in s.arenas
    ensures Consistent(Registry(s.arenas - {name}, RemoveFirst(s.available, name),
                                s.files - {RecordFileName(name)}, s.schematics - {SchematicKey(s.arenas[name])}))
  {
    forall n {
      RemoveFirstMembership(s.available, name, n);
    }
  }

  // ---------------------------------------------------------------------------
  // Queries

  /** `getArena(name)`. */
  function GetArena(s: Registry, name: string): (r: Option<Arena>)
    ensures r.Some? <==> HasArena(s, name)
    ensures r.Some? ==> r.value == s.arenas[name]
  {
    if name in s.arenas then Some(s.arenas[name]) else None
  }

  /** `hasArena(name)`. */
  predicate HasArena(s: Registry, name: string) {
    name in s.arenas
  }

  /** `getAvailableArenas()`: a copy of the available list. In a consistent
      catalogue it names every complete arena exactly once. */
  function GetAvailableArenas(s: Registry): (r: seq<string>)
    ensures r == s.available
    ensures Consistent(s) ==> NoDuplicates(r)
    ensures Consistent(s) ==> forall n :: n in r <==> n in s.arenas && IsComplete(s.arenas[n])
  {
    s.available
  }

  /** `getRandomAvailableArena()`, with the random index supplied as `pick`:
      no arena when the list is empty; otherwise the map entry of the picked
      name, which in a consistent catalogue is a complete arena. */
  function GetRandomAvailableArena(s: Registry, pick: nat): (r: Option<Arena>)
    requires |s.available| == 0 || pick < |s.available|
    ensures |s.available| == 0 ==> r.None?
    ensures Consistent(s) ==> (r.None? <==> |s.available| == 0)
    ensures r.Some? ==> s.available[pick] in s.arenas && r.value == s.arenas[s.available[pick]]
    ensures Consistent(s) && r.Some? ==> IsComplete(r.value)
    ensures |s.available| > 0 ==> (r.Some? <==> s.available[pick] in s.arenas)
  {
    if |s.available| == 0 then None
    else GetArena(s, s.available[pick])
  }
}

=== FILE: arenas.dfy ===
/** The arena definition that `ArenaManager` keeps per name.
    `Arena.java` is not part of this model: its completeness and readiness
    predicates are defined here from the fields the manager reads and writes. */
module Arenas {
  import opened Wrappers
  import opened Text

  /** A world position; Bukkit's double coordinates are abstracted to integers. */
  datatype Location = Location(world: string, x: int, y: int, z: int)

  datatype Arena = Arena(
    name: string,
    pos1: Option<Location>,
    pos2: Option<Location>,
    spawn1: Option<Location>,
    spawn2: Option<Location>,
    regeneration: bool,
    schematicName: string)

  /** Both region corners and both spawn points are set. */
  predicate IsComplete(a: Arena) {
    a.pos1.Some? && a.pos2.Some? && a.spawn1.Some? && a.spawn2.Some?
  }

  /** A complete arena with regeneration switched on. Whether the schematic
      file exists is checked separately by the manager before a restore. */
  predicate IsRegenerationReady(a: Arena) {
    IsComplete(a) && a.regeneration
  }

  /** The schematic name an arena gets when none is recorded:
      its name in lower case followed by `_arena`. */
  function DefaultSchematicName(name: string): (r: string)
    ensures EndsWith(r, "_arena") && |r| == |name| + 6
  {
    ToLower(name) + "_arena"
  }

  /** `new Arena(name)`: nothing set, regeneration off, default schematic name. */
  function NewArena(name: string): (a: Arena)
    ensures a.name == name && !IsComplete(a) && !IsRegenerationReady(a)
    ensures a.schematicName == DefaultSchematicName(name)
  {
    Arena(name, None, None, None, None, false, DefaultSchematicName(name))
  }

  /** The file in the arenas folder that holds the arena called `name`. */
  function RecordFileName(name: string): (f: string)
    ensures |f| == |name| + 4 && f[..|name|] == name && EndsWith(f, ".yml")
  {
    name + ".yml"
  }

  /** The file in the schematics folder that holds an arena's captured region.
      Capture, restore and delete all use this one key. */
  function SchematicKey(a: Arena): (k: string)
    ensures |k| == |a.schematicName| + 6 && k[..|a.schematicName|] == a.schematicName
    ensures EndsWith(k, ".schem")
  {
    a.schematicName + ".schem"
  }
}

=== FILE: editor_sessions.dfy ===
/** The static `activeGuis` table of `KitEditorGUI` together with the editors
    it points at: at most one registered editor per player, and a registered
    editor is always an active editor of that player. */
module EditorSessions {
  import opened Wrappers
  import opened KitEditor

  /** Identity of an editor object. */
  type EditorId = nat

  datatype Sessions = Sessions(editors: map<EditorId, Editor>, activeGuis: map<PlayerId, EditorId>)

  /** Every editor has a full buffer and keeps bulk mode and bulk item in step. */
  predicate EditorsValid(ss: Sessions) {
    forall id :: id in ss.editors ==> WellFormed(ss.editors[id]) && BulkConsistent(ss.editors[id])
  }

  /** Every registration points at an active editor owned by that player. */
  predicate RegistrationsValid(ss: Sessions) {
    forall p :: p in ss.activeGuis ==>
      && ss.activeGuis[p] in ss.editors
      && ss.editors[ss.activeGuis[p]].owner == p
      && ss.editors[ss.activeGuis[p]].active
  }

  predicate Valid(ss: Sessions) {
    EditorsValid(ss) && RegistrationsValid(ss)
  }

  /** The constructor: a new editor object, not yet registered. */
  function CreateEditor(ss: Sessions, id: EditorId, owner: PlayerId, kitName: string,
                        existing: Option<Kit>): (r: Result<Sessions, EditorError>)
    requires id !in ss.editors
    ensures r.Success? <==> NewEditor(owner, kitName, existing).Success?
    ensures r.Success? ==> r.value.activeGuis == ss.activeGuis
    ensures r.Success? ==> r.value.editors == ss.editors[id := NewEditor(owner, kitName, existing).value]
    ensures r.Success? && Valid(ss) ==> Valid(r.value)
  {
    match NewEditor(owner, kitName, existing)
    case Failure(err) => Failure(err)
    case Success(e) => Success(ss.(editors := ss.editors[id := e]))
  }

  /** `forceCleanup`: the editor's flags are reset and whatever is registered
      for its player is unregistered. */
  function Cleanup(ss: Sessions, id: EditorId): (r: Sessions)
    requires id in ss.editors
    ensures id in r.editors && !r.editors[id].active && !r.editors[id].navigating
    ensures ss.editors[id].owner !in r.activeGuis
    ensures r.activeGuis == ss.activeGuis - {ss.editors[id].owner}
    ensures r.editors == ss.editors[id := ForceCleanup(ss.editors[id])]
    ensures Valid(ss) ==> Valid(r)
  {
    var e := ss.editors[id];
    Sessions(ss.editors[id := ForceCleanup(e)], ss.activeGuis - {e.owner})
  }

  /** `open`: another editor registered for the same player is cleaned up
      first; then this editor is registered, made active and taken out of
      navigation. */
  function Open(ss: Sessions, id: EditorId): (r: Sessions)
    requires id in ss.editors
    ensures id in r.editors && r.editors.Keys == ss.editors.Keys
    ensures var p := ss.editors[id].owner;
      && p in r.activeGuis && r.activeGuis[p] == id
      && r.editors[id].active && !r.editors[id].navigating
    ensures var p := ss.editors[id].owner;
      p in ss.activeGuis && ss.activeGuis[p] != id && ss.activeGuis[p] in ss.editors ==>
        r.editors[ss.activeGuis[p]] == ForceCleanup(ss.editors[ss.activeGuis[p]])
    ensures r.editors[id] == ss.editors[id].(active := true, navigating := false)
    ensures var p := ss.editors[id].owner;
      forall other :: other in ss.editors && other != id && (p !in ss.activeGuis || other != ss.activeGuis[p]) ==>
        r.editors[other] == ss.editors[other]
    ensures RegistrationsValid(ss) ==> r.activeGuis == ss.activeGuis[ss.editors[id].owner := id]
    ensures Valid(ss) ==> Valid(r)
  {
    var p := ss.editors[id].owner;
    if p in ss.activeGuis && ss.activeGuis[p] != id && ss.activeGuis[p] in ss.editors then
      var ss1 := Cleanup(ss, ss.activeGuis[p]);
      RegisterKeepsValid(ss1, id);
      Register(ss1, id)
    else
      RegisterKeepsValid(ss, id);
      Register(ss, id)
  }

  /** The last step of `open`: the editor is registered for its player, made
      active and taken out of navigation. */
  function Register(ss: Sessions, id: EditorId): (r: Sessions)
    requires id in ss.editors
  {
    var e := ss.editors[id];
    Sessions(ss.editors[id := e.(active := true, navigating := false)], ss.activeGuis[e.owner := id])
  }

  lemma RegisterKeepsValid(ss: Sessions, id: EditorId)
    requires id in ss.editors
    ensures Valid(ss) ==> Valid(Register(ss, id))
  {
  }

  /** A click delivered to editor `id`; saving and cancelling end in
      `forceCleanup`, which also unregisters the player. */
  function Click(ss: Sessions, id: EditorId, ev: ClickEvent): (r: (Sessions, Effect))
    requires id in ss.editors && WellFormed(ss.editors[id])
    ensures r.1 == OnInventoryClick(ss.editors[id], ev).effect
    ensures r.0.editors == ss.editors[id := OnInventoryClick(ss.editors[id], ev).editor]
    ensures r.1.KitSaved? || r.1.Cancelled? ==> ss.editors[id].owner !in r.0.activeGuis
    ensures !(r.1.KitSaved? || r.1.Cancelled?) ==> r.0.activeGuis == ss.activeGuis
    ensures Valid(ss) ==> Valid(r.0)
  {
    var e := ss.editors[id];
    var step := OnInventoryClick(e, ev);
    var registrations :=
      if step.effect.KitSaved? || step.effect.Cancelled? then ss.activeGuis - {e.owner} else ss.activeGuis;
    (Sessions(ss.editors[id := step.editor], registrations), step.effect)
  }

  /** The delayed task scheduled by a close: cleans up only if the editor is
      still active and not navigating when it runs. */
  function CloseCleanup(ss: Sessions, id: EditorId): (r: Sessions)
    requires id in ss.editors
    ensures ss.editors[id].navigating || !ss.editors[id].active ==> r == ss
    ensures ss.editors[id].active && !ss.editors[id].navigating ==>
      && r.editors == ss.editors[id := ForceCleanup(ss.editors[id])]
      && r.activeGuis == ss.activeGuis - {ss.editors[id].owner}
      && !r.editors[id].active
    ensures Valid(ss) ==> Valid(r)
  {
    var e := ss.editors[id];
    if e.active && !e.navigating then Cleanup(ss, id) else ss
  }

  /** `refreshAndReopen`: navigation is over; registrations are untouched. */
  function Refresh(ss: Sessions, id: EditorId): (r: Sessions)
    requires id in ss.editors
    ensures r.activeGuis == ss.activeGuis && id in r.editors && !r.editors[id].navigating
    ensures r.editors == ss.editors[id := RefreshAndReopen(ss.editors[id])]
    ensures Valid(ss) ==> Valid(r)
  {
    ss.(editors := ss.editors[id := RefreshAndReopen(ss.editors[id])])
  }

  /** Only registered editors are unique per player: every editor starts out
      active, so constructing a second editor for a player whose first editor
      is registered gives that player two active editors until the second one
      is opened. */
  lemma CreateLeavesTwoActiveEditors(ss: Sessions, id: EditorId, p: PlayerId, kitName: string)
    requires Valid(ss) && p in ss.activeGuis && id !in ss.editors
    ensures CreateEditor(ss, id, p, kitName, None).Success?
    ensures var r := CreateEditor(ss, id, p, kitName, None).value;
      && Valid(r)
      && ss.activeGuis[p] != id && ss.activeGuis[p] in r.editors && id in r.editors
      && r.editors[ss.activeGuis[p]].owner == p && r.editors[ss.activeGuis[p]].active
      && r.editors[id].owner == p && r.editors[id].active
  {
  }

  /** A close of a screen the editor left for a sub-selector never removes
      the editor, whatever runs in between as long as it does not end the
      navigation. */
  lemma NavigationCloseKeepsEditor(ss: Sessions, id: EditorId, ev: CloseEvent)
    requires id in ss.editors && ss.editors[id].navigating
    ensures !OnInventoryClose(ss.editors[id], ev)
    ensures CloseCleanup(ss, id) == ss
  {
  }
}

=== FILE: kit_editor.dfy ===
/** `KitEditorGUI` without its rendering: a 41-slot buffer (36 main slots,
    4 armour slots, 1 offhand slot), the flags that drive the click and close
    handlers, and the packing of the buffer into a saved kit. */
module KitEditor {
  import opened Wrappers

  datatype Material =
    | PurpleStainedGlassPane
    | GreenStainedGlassPane
    | OrangeStainedGlassPane
    | OtherMaterial(id: nat)

  /** An item stack: its material, with amount and meta abstracted to `data`. */
  datatype Item = Item(material: Material, data: nat)

  /** A slot's content; `None` is an empty (`null`) slot. */
  type Stack = Option<Item>

  type PlayerId = nat

  const MainSlots := 36
  const ArmorSlots := 4
  const OffhandSlot := 40
  /** The contents array of a saved kit: the 36 main slots, then the offhand. */
  const SavedContentsLength := 37

  const SaveButton := 45
  const BulkButton := 47
  const ClearButton := 49
  const CancelButton := 53

  /** `n` empty slots. */
  function EmptySlots(n: nat): (b: seq<Stack>)
    ensures |b| == n && forall i :: 0 <= i < n ==> b[i].None?
  {
    if n == 0 then [] else EmptySlots(n - 1) + [None]
  }

  /** A kit as handed to and received from the kit store. */
  datatype Kit = Kit(name: string, contents: seq<Stack>, armor: seq<Stack>)

  datatype Editor = Editor(
    owner: PlayerId,
    kitName: string,
    contents: seq<Stack>,
    armor: seq<Stack>,
    offhand: Stack,
    active: bool,
    bulkMode: bool,
    bulkItem: Stack,
    navigating: bool)

  datatype EditorError = IndexOutOfBounds(slot: int) | ArmorTooShort

  predicate WellFormed(e: Editor) {
    |e.contents| == MainSlots && |e.armor| == ArmorSlots
  }

  /** The 41 editable slots in slot order: 0-35 main, 36-39 armour, 40 offhand. */
  function Slots(e: Editor): (b: seq<Stack>)
    requires WellFormed(e)
    ensures |b| == OffhandSlot + 1
    ensures b[..MainSlots] == e.contents && b[MainSlots..OffhandSlot] == e.armor && b[OffhandSlot] == e.offhand
  {
    e.contents + e.armor + [e.offhand]
  }

  /** Bulk mode is on exactly when there is a bulk item. */
  predicate BulkConsistent(e: Editor) {
    e.bulkMode <==> e.bulkItem.Some?
  }

  /** Everything but the buffer is the same. */
  predicate SameFlags(e: Editor, e': Editor) {
    && e.owner == e'.owner && e.kitName == e'.kitName
    && e.active == e'.active && e.bulkMode == e'.bulkMode
    && e.bulkItem == e'.bulkItem && e.navigating == e'.navigating
  }

  /** The glass panes the editor shows in empty slots. */
  predicate IsPlaceholder(item: Item) {
    item.material in {PurpleStainedGlassPane, GreenStainedGlassPane, OrangeStainedGlassPane}
  }

  function Min(a: int, b: int): int {
    if a < b then a else b
  }

  // ---------------------------------------------------------------------------
  // Construction, saving

  /** The constructor: an empty buffer, or the stored kit's first (up to) 36
      contents entries, its first 4 armour entries, and its contents entry 36
      as offhand when there is one. Copying 4 armour entries from a shorter
      array throws. */
  function NewEditor(owner: PlayerId, kitName: string, existing: Option<Kit>): (r: Result<Editor, EditorError>)
    ensures r.Failure? <==> existing.Some? && |existing.value.armor| < ArmorSlots
    ensures r.Success? ==> WellFormed(r.value) && BulkConsistent(r.value)
    ensures r.Success? ==> r.value.owner == owner && r.value.kitName == kitName
    ensures r.Success? ==> r.value.active && !r.value.navigating && !r.value.bulkMode
    ensures existing.None? ==> r.Success? && forall i :: 0 <= i <= OffhandSlot ==> Slots(r.value)[i].None?
    ensures r.Success? && existing.Some? ==>
      && (forall i :: 0 <= i < MainSlots ==>
            Slots(r.value)[i] == if i < |existing.value.contents| then existing.value.contents[i] else None)
      && (forall j :: 0 <= j < ArmorSlots ==> Slots(r.value)[MainSlots + j] == existing.value.armor[j])
      && Slots(r.value)[OffhandSlot] ==
           if |existing.value.contents| > MainSlots then existing.value.contents[MainSlots] else None
  {
    match existing
    case None =>
      Success(Editor(owner, kitName, EmptySlots(MainSlots), EmptySlots(ArmorSlots), None, true, false, None, false))
    case Some(k) =>
      if |k.armor| < ArmorSlots then Failure(ArmorTooShort)
      else
        var n := Min(|k.contents|, MainSlots);
        var contents := k.contents[..n] + EmptySlots(MainSlots - n);
        var offhand := if |k.contents| > MainSlots && k.contents[MainSlots].Some? then k.contents[MainSlots] else None;
        Success(Editor(owner, kitName, contents, k.armor[..ArmorSlots], offhand, true, false, None, false))
  }

  /** The kit `saveKit` hands to the kit store: a 37-entry contents array of
      the main slots followed by the offhand, and a copy of the armour. */
  function PackKit(e: Editor): (k: Kit)
    requires WellFormed(e)
    ensures |k.contents| == SavedContentsLength && |k.armor| == ArmorSlots
    ensures k.contents + k.armor == e.contents + [e.offhand] + e.armor
    ensures k.name == e.kitName
  {
    Kit(e.kitName, e.contents + [e.offhand], e.armor)
  }

  /** `saveKit`: packs the kit, then cleans up. */
  function SaveKit(e: Editor): (r: (Editor, Kit))
    requires WellFormed(e)
    ensures r.1 == PackKit(e)
    ensures !r.0.active && !r.0.navigating && !r.0.bulkMode && r.0.bulkItem.None?
    ensures WellFormed(r.0) && Slots(r.0) == Slots(e)
  {
    (ForceCleanup(e), PackKit(e))
  }

  /** Saving a buffer and opening an editor on the saved kit gives back every
      main, armour and offhand slot. */
  lemma SaveThenLoadRoundTrip(e: Editor)
    requires WellFormed(e)
    ensures NewEditor(e.owner, e.kitName, Some(PackKit(e))).Success?
    ensures Slots(NewEditor(e.owner, e.kitName, Some(PackKit(e))).value) == Slots(e)
  {
    var r := NewEditor(e.owner, e.kitName, Some(PackKit(e))).value;
    assert r.contents == e.contents;
    assert r.armor == e.armor;
  }

  /** Opening a stored kit and saving it again keeps its first 36 contents
      entries (padded with empty slots), its offhand entry and its first 4
      armour entries, and drops everything beyond. */
  lemma LoadThenSaveKeepsLoadedPart(owner: PlayerId, k: Kit)
    requires |k.armor| >= ArmorSlots
    ensures NewEditor(owner, k.name, Some(k)).Success?
    ensures
      var saved := PackKit(NewEditor(owner, k.name, Some(k)).value);
      && saved.armor == k.armor[..ArmorSlots]
      && (forall i :: 0 <= i < SavedContentsLength ==>
            saved.contents[i] == if i < |k.contents| then k.contents[i] else None)
  {
    var e := NewEditor(owner, k.name, Some(k)).value;
    var saved := PackKit(e);
    forall i | 0 <= i < SavedContentsLength
      ensures saved.contents[i] == if i < |k.contents| then k.contents[i] else None
    {
      if i < MainSlots {
        assert saved.contents[i] == Slots(e)[i];
      } else {
        assert saved.contents[i] == Slots(e)[OffhandSlot];
      }
    }
  }

  // ---------------------------------------------------------------------------
  // Slot routing

  /** `getCurrentItemInSlot`: slots 0-40 read the buffer in slot order, higher
      slots read as empty, and a negative slot indexes the main array out of
      bounds. */
  function GetCurrentItemInSlot(e: Editor, slot: int): (r: Result<Stack, EditorError>)
    requires WellFormed(e)
    ensures r.Failure? <==> slot < 0
    ensures 0 <= slot <= OffhandSlot ==> r == Success(Slots(e)[slot])
    ensures slot > OffhandSlot ==> r == Success(None)
  {
    if slot < 0 then Failure(IndexOutOfBounds(slot))
    else if slot < MainSlots then Success(e.contents[slot])
    else if slot < OffhandSlot then Success(e.armor[slot - MainSlots])
    else if slot == OffhandSlot then Success(e.offhand)
    else Success(None)
  }

  /** `setSlotItem`: slots 0-40 write the buffer in slot order and nothing
      else, higher slots change nothing, and a negative slot throws. */
  function SetSlotItem(e: Editor, slot: int, x: Stack): (r: Result<Editor, EditorError>)
    requires WellFormed(e)
    ensures r.Failure? <==> slot < 0
    ensures r.Success? ==> WellFormed(r.value) && SameFlags(e, r.value)
    ensures 0 <= slot <= OffhandSlot ==> r.Success? && Slots(r.value) == Slots(e)[slot := x]
    ensures slot > OffhandSlot ==> r == Success(e)
  {
    if slot < 0 then Failure(IndexOutOfBounds(slot))
    else if slot < MainSlots then Success(e.(contents := e.contents[slot := x]))
    else if slot < OffhandSlot then Success(e.(armor := e.armor[slot - MainSlots := x]))
    else if slot == OffhandSlot then Success(e.(offhand := x))
    else Success(e)
  }

  /** Reading a slot after writing it gives the written item, and every other
      slot reads as before. */
  lemma GetAfterSet(e: Editor, slot: int, x: Stack, other: int)
    requires WellFormed(e) && 0 <= slot <= OffhandSlot && other != slot
    ensures GetCurrentItemInSlot(SetSlotItem(e, slot, x).value, slot) == Success(x)
    ensures GetCurrentItemInSlot(SetSlotItem(e, slot, x).value, other) == GetCurrentItemInSlot(e, other)
  {
  }

  /** `clearSlot`: the slot is emptied and nothing else changes. */
  function ClearSlot(e: Editor, slot: int): (r: Result<Editor, EditorError>)
    requires WellFormed(e)
    ensures r.Failure? <==> slot < 0
    ensures r.Success? ==> WellFormed(r.value) && SameFlags(e, r.value)
    ensures 0 <= slot <= OffhandSlot ==>
      && r.Success? && Slots(r.value)[slot].None?
      && forall t :: 0 <= t <= OffhandSlot && t != slot ==> Slots(r.value)[t] == Slots(e)[t]
    ensures slot > OffhandSlot ==> r == Success(e)
  {
    SetSlotItem(e, slot, None)
  }

  // ---------------------------------------------------------------------------
  // Flags

  /** `enterBulkMode` / `setBulkItem`: bulk mode on with the given item. */
  function EnterBulkMode(e: Editor, item: Item): (r: Editor)
    ensures r.bulkMode && r.bulkItem == Some(item) && BulkConsistent(r)
    ensures r.(bulkMode := e.bulkMode, bulkItem := e.bulkItem) == e
  {
    e.(bulkMode := true, bulkItem := Some(item))
  }

  /** `exitBulkMode`: bulk mode off, no bulk item. */
  function ExitBulkMode(e: Editor): (r: Editor)
    ensures !r.bulkMode && r.bulkItem.None? && BulkConsistent(r)
    ensures r.(bulkMode := e.bulkMode, bulkItem := e.bulkItem) == e
  {
    e.(bulkMode := false, bulkItem := None)
  }

  /** `clearAllSlots`: every main, armour and offhand slot emptied, and bulk
      mode left. */
  function ClearAllSlots(e: Editor): (r: Editor)
    ensures WellFormed(r) && forall i :: 0 <= i <= OffhandSlot ==> Slots(r)[i].None?
    ensures !r.bulkMode && r.bulkItem.None?
    ensures r.owner == e.owner && r.kitName == e.kitName
    ensures r.active == e.active && r.navigating == e.navigating
  {
    ExitBulkMode(e.(contents := EmptySlots(MainSlots), armor := EmptySlots(ArmorSlots), offhand := None))
  }

  /** `forceCleanup`, on the editor's own state: inactive, not navigating, not
      in bulk mode; the buffer is kept. */
  function ForceCleanup(e: Editor): (r: Editor)
    ensures !r.active && !r.navigating && !r.bulkMode && r.bulkItem.None? && BulkConsistent(r)
    ensures r.(active := e.active, navigating := e.navigating, bulkMode := e.bulkMode, bulkItem := e.bulkItem) == e
  {
    e.(active := false, bulkMode := false, bulkItem := None, navigating := false)
  }

  /** Opening any sub-selector: the navigating flag is raised so that the
      close of this screen does not clean up. */
  function Navigate(e: Editor): (r: Editor)
    ensures r.navigating
    ensures r.(navigating := e.navigating) == e
  {
    e.(navigating := true)
  }

  /** `refreshAndReopen`: navigation is over. */
  function RefreshAndReopen(e: Editor): (r: Editor)
    ensures !r.navigating
    ensures r.(navigating := e.navigating) == e
  {
    e.(navigating := false)
  }

  // ---------------------------------------------------------------------------
  // Click dispatch

  datatype ClickType = Left | Right | ShiftLeft | ShiftRight | OtherClick

  /** A click: who clicked (`None` when not a player), whether this editor's
      inventory is the top inventory of the clicker's view (wherever in that
      view the click landed, so a click in the player's own inventory below
      counts too), the slot index the event reports and the kind of click. */
  datatype ClickEvent = ClickEvent(clicker: Option<PlayerId>, inEditor: bool, slot: int, click: ClickType)

  /** The sub-screens a click can open. */
  datatype Selector = BulkCategorySelector | CategorySelector | ArmorSelector | ItemModification(item: Item)

  /** What a click did besides changing the editor state. */
  datatype Effect =
    | Ignored
    | BulkExited
    | SelectorOpened(selector: Selector, slot: int)
    | KitSaved(kit: Kit)
    | Cancelled
    | AllCleared
    | BulkPlaced(slot: int)
    | BulkRefused
    | BulkEntered
    | SlotIndexError
    | NoEffect

  datatype Step = Step(editor: Editor, effect: Effect)

  /** The click comes from this editor's player while this editor is the top
      inventory of the view, and the editor is taking clicks. */
  predicate Handles(e: Editor, ev: ClickEvent) {
    ev.clicker == Some(e.owner) && ev.inEditor && e.active && !e.navigating
  }

  /** The selector a plain click on a slot opens: armour slots get the armour
      selector, every other slot the category selector. */
  function OpenSlotSelector(e: Editor, slot: int): (r: Step)
    ensures r.editor == Navigate(e)
    ensures r.effect.SelectorOpened? && r.effect.slot == slot
    ensures r.effect.selector == ArmorSelector <==> MainSlots <= slot < OffhandSlot
    ensures !(MainSlots <= slot < OffhandSlot) ==> r.effect.selector == CategorySelector
  {
    if MainSlots <= slot <= 39 then Step(Navigate(e), SelectorOpened(ArmorSelector, slot))
    else Step(Navigate(e), SelectorOpened(CategorySelector, slot))
  }

  /** A click on a slot numbered 40 or lower, in the handler's order: bulk
      placement, shift-click into bulk mode, right-click on an item, and
      otherwise the slot's selector. */
  function SlotClick(e: Editor, slot: int, click: ClickType): (r: Step)
    requires WellFormed(e) && slot <= OffhandSlot
    ensures WellFormed(r.editor) && r.editor.active == e.active
    ensures BulkConsistent(e) ==> BulkConsistent(r.editor)
    ensures e.bulkMode && e.bulkItem.Some? && 0 <= slot < MainSlots ==>
      r == Step(r.editor, BulkPlaced(slot)) && SameFlags(e, r.editor)
      && Slots(r.editor) == Slots(e)[slot := e.bulkItem]
    ensures e.bulkMode && e.bulkItem.Some? && MainSlots <= slot ==> r == Step(e, BulkRefused)
    ensures e.bulkMode && e.bulkItem.Some? && slot < 0 ==> r == Step(e, SlotIndexError)
    ensures !r.effect.BulkPlaced? ==> Slots(r.editor) == Slots(e)
    ensures !(e.bulkMode && e.bulkItem.Some?) && slot < 0 && click in {ShiftLeft, ShiftRight, Right} ==>
      r == Step(e, SlotIndexError)
    ensures !(e.bulkMode && e.bulkItem.Some?) && 0 <= slot && click in {ShiftLeft, ShiftRight} ==>
      var current := Slots(e)[slot];
      r == if current.Some? && !IsPlaceholder(current.value) then Step(EnterBulkMode(e, current.value), BulkEntered)
           else if slot < MainSlots then Step(Navigate(e), SelectorOpened(BulkCategorySelector, slot))
           else OpenSlotSelector(e, slot)
    ensures !(e.bulkMode && e.bulkItem.Some?) && 0 <= slot && click == Right ==>
      var current := Slots(e)[slot];
      r == if current.Some? && !IsPlaceholder(current.value)
           then Step(Navigate(e), SelectorOpened(ItemModification(current.value), slot))
           else OpenSlotSelector(e, slot)
    ensures !(e.bulkMode && e.bulkItem.Some?) && click in {Left, OtherClick} ==> r == OpenSlotSelector(e, slot)
  {
    if e.bulkMode && e.bulkItem.Some? then
      if slot < MainSlots then
        match SetSlotItem(e, slot, e.bulkItem)
        case Failure(_) => Step(e, SlotIndexError)
        case Success(e') => Step(e', BulkPlaced(slot))
      else Step(e, BulkRefused)
    else if click == ShiftLeft || click == ShiftRight then
      match GetCurrentItemInSlot(e, slot)
      case Failure(_) => Step(e, SlotIndexError)
      case Success(current) =>
        if current.Some? && !IsPlaceholder(current.value) then Step(EnterBulkMode(e, current.value), BulkEntered)
        else if slot < MainSlots then Step(Navigate(e), SelectorOpened(BulkCategorySelector, slot))
        else OpenSlotSelector(e, slot)
    else if click == Right then
      match GetCurrentItemInSlot(e, slot)
      case Failure(_) => Step(e, SlotIndexError)
      case Success(current) =>
        if current.Some? && !IsPlaceholder(current.value) then
          Step(Navigate(e), SelectorOpened(ItemModification(current.value), slot))
        else OpenSlotSelector(e, slot)
    else OpenSlotSelector(e, slot)
  }

  /** `onInventoryClick`. Clicks from others, on other inventories, or while
      the editor is inactive or navigating change nothing. Otherwise the bulk
      button, the save, cancel and clear buttons and the 41 slots are handled
      in the source's order. */
  function OnInventoryClick(e: Editor, ev: ClickEvent): (r: Step)
    requires WellFormed(e)
    ensures WellFormed(r.editor) && r.editor.owner == e.owner && r.editor.kitName == e.kitName
    ensures !Handles(e, ev) <==> r == Step(e, Ignored)
    ensures BulkConsistent(e) ==> BulkConsistent(r.editor)
    ensures r.effect.SelectorOpened? ==> r.editor.navigating && Slots(r.editor) == Slots(e)
    ensures Slots(r.editor) != Slots(e) ==> r.effect.BulkPlaced? || r.effect.AllCleared?
    ensures r.editor.active != e.active ==> r.effect.KitSaved? || r.effect.Cancelled?
    ensures r.effect.KitSaved? ==> r.effect.kit == PackKit(e) && !r.editor.active
    ensures Handles(e, ev) && e.bulkMode && e.bulkItem.Some? && 0 <= ev.slot < MainSlots ==>
      r.effect == BulkPlaced(ev.slot) && Slots(r.editor) == Slots(e)[ev.slot := e.bulkItem]
    ensures Handles(e, ev) && e.bulkMode && e.bulkItem.Some? && MainSlots <= ev.slot <= OffhandSlot ==>
      r == Step(e, BulkRefused)
    ensures Handles(e, ev) && ev.slot == SaveButton ==> r == Step(ForceCleanup(e), KitSaved(PackKit(e)))
    ensures Handles(e, ev) && ev.slot == CancelButton ==> r == Step(ForceCleanup(e), Cancelled)
    ensures Handles(e, ev) && ev.slot == ClearButton ==> r == Step(ClearAllSlots(e), AllCleared)
    ensures Handles(e, ev) && ev.slot == BulkButton ==>
      r == if e.bulkMode && ev.click == Right then Step(ExitBulkMode(e), BulkExited)
           else if !e.bulkMode || ev.click == Left then Step(Navigate(e), SelectorOpened(BulkCategorySelector, 0))
           else Step(e, NoEffect)
    ensures Handles(e, ev) && ev.slot <= OffhandSlot ==> r == SlotClick(e, ev.slot, ev.click)
    ensures Handles(e, ev) && OffhandSlot < ev.slot && ev.slot !in {SaveButton, BulkButton, ClearButton, CancelButton} ==>
      r == Step(e, NoEffect)
  {
    if !Handles(e, ev) then Step(e, Ignored)
    else if ev.slot == BulkButton && e.bulkMode && ev.click == Right then Step(ExitBulkMode(e), BulkExited)
    else if ev.slot == BulkButton && (!e.bulkMode || ev.click == Left) then
      Step(Navigate(e), SelectorOpened(BulkCategorySelector, 0))
    else if ev.slot == SaveButton then
      var saved := SaveKit(e);
      Step(saved.0, KitSaved(saved.1))
    else if ev.slot == CancelButton then Step(ForceCleanup(e), Cancelled)
    else if ev.slot == ClearButton then Step(ClearAllSlots(e), AllCleared)
    else if ev.slot <= OffhandSlot then SlotClick(e, ev.slot, ev.click)
    else Step(e, NoEffect)
  }

  // ---------------------------------------------------------------------------
  // Close handling

  /** A close: who closed (`None` when not a player) and whether the closed
      view's top inventory is this editor's. */
  datatype CloseEvent = CloseEvent(closer: Option<PlayerId>, inEditor: bool)

  /** `onInventoryClose`: whether the delayed cleanup is scheduled. It is,
      only for this editor's own screen and only when the editor is active and
      not navigating to a sub-screen. */
  function OnInventoryClose(e: Editor, ev: CloseEvent): (scheduled: bool)
    ensures scheduled ==> e.active && !e.navigating
    ensures scheduled ==> ev.closer == Some(e.owner) && ev.inEditor
    ensures e.active && !e.navigating && ev.closer == Some(e.owner) && ev.inEditor ==> scheduled
  {
    ev.closer == Some(e.owner) && ev.inEditor && e.active && !e.navigating
  }

  /** The delayed cleanup task: checks the flags again when it runs, so a
      navigation started in between keeps the editor alive. */
  function DelayedCleanup(e: Editor): (r: Editor)
    ensures e.active && !e.navigating ==> r == ForceCleanup(e)
    ensures e.navigating || !e.active ==> r == e
  {
    if e.active && !e.navigating then ForceCleanup(e) else e
  }
}

=== FILE: schematics.dfy ===
/** Capture (`generateSchematic`) and restore (`regenerateArena`) of an arena's
    region. The region engine itself is outside the model: what is modelled is
    the chain of guards in front of it, the artifact file each operation uses,
    and what the engine is asked to do. */
module Schematics {
  import opened Wrappers
  import opened Arenas
  import opened ArenaRegistry

  /** How the engine's part of a capture goes once the guards have passed: the
      copy into the clipboard can throw, or the copy completes and writing the
      file throws after the output stream has created it. */
  datatype EngineRun = Completes | CopyThrows | WriteThrows

  datatype CaptureError = EngineMissing | PositionsNotSet | GenerationFailed

  /** What the engine is asked to copy and where the result is stored: the
      cuboid spanned by the arena's two corners in `world`, written to the
      file `key`. The corners are handed over as set; which one is the
      minimum is left to the engine. */
  datatype Capture = Capture(world: string, corner1: Location, corner2: Location, key: string)

  datatype RestoreError = NotReady | EngineUnavailable | ArtifactMissing | PasteFailed

  /** What the engine is asked to paste: the file `key`, into `world`, with the
      clipboard origin placed at `anchor`. */
  datatype Paste = Paste(world: string, anchor: Location, key: string)

  /** `generateSchematic(arena, player)` as written: the engine check comes
      first, then the two corners; the region is taken in the world the
      player stands in. */
  function GenerateSchematicAsWritten(s: Registry, a: Arena, playerWorld: string,
                                      engineEnabled: bool, run: EngineRun): (r: (Registry, Result<Capture, CaptureError>))
    ensures r.0.arenas == s.arenas && r.0.available == s.available && r.0.files == s.files
    ensures s.schematics <= r.0.schematics <= s.schematics + {SchematicKey(a)}
    ensures !engineEnabled ==> r == (s, Failure(EngineMissing))
    ensures engineEnabled && (a.pos1.None? || a.pos2.None?) ==> r == (s, Failure(PositionsNotSet))
    ensures r.1.Success? <==> engineEnabled && a.pos1.Some? && a.pos2.Some? && run.Completes?
    ensures r.1.Success? ==> r.1.value == Capture(playerWorld, a.pos1.value, a.pos2.value, SchematicKey(a))
    ensures r.1.Success? ==> SchematicKey(a) in r.0.schematics
    ensures run.CopyThrows? ==> r.0 == s
  {
    if !engineEnabled then (s, Failure(EngineMissing))
    else if a.pos1.None? || a.pos2.None? then (s, Failure(PositionsNotSet))
    else RunCapture(s, a, playerWorld, run)
  }

  /** `generateSchematic` with the region taken in the world of its first
      corner, the world `regenerateArena` pastes into. */
  function GenerateSchematic(s: Registry, a: Arena, engineEnabled: bool, run: EngineRun): (r: (Registry, Result<Capture, CaptureError>))
    ensures r.0.arenas == s.arenas && r.0.available == s.available && r.0.files == s.files
    ensures s.schematics <= r.0.schematics <= s.schematics + {SchematicKey(a)}
    ensures !engineEnabled ==> r == (s, Failure(EngineMissing))
    ensures engineEnabled && (a.pos1.None? || a.pos2.None?) ==> r == (s, Failure(PositionsNotSet))
    ensures r.1.Success? <==> engineEnabled && a.pos1.Some? && a.pos2.Some? && run.Completes?
    ensures r.1.Success? ==> r.1.value == Capture(a.pos1.value.world, a.pos1.value, a.pos2.value, SchematicKey(a))
    ensures r.1.Success? ==> SchematicKey(a) in r.0.schematics
    ensures run.CopyThrows? ==> r.0 == s
  {
    if !engineEnabled then (s, Failure(EngineMissing))
    else if a.pos1.None? || a.pos2.None? then (s, Failure(PositionsNotSet))
    else RunCapture(s, a, a.pos1.value.world, run)
  }

  /** The engine's part of a capture, in the given world. */
  function RunCapture(s: Registry, a: Arena, world: string, run: EngineRun): (r: (Registry, Result<Capture, CaptureError>))
    requires a.pos1.Some? && a.pos2.Some?
    ensures r.0.arenas == s.arenas && r.0.available == s.available && r.0.files == s.files
    ensures r.1.Success? <==> run.Completes?
    ensures r.1.Failure? ==> r.1.error == GenerationFailed
    ensures run.CopyThrows? ==> r.0 == s
    ensures !run.CopyThrows? ==> r.0.schematics == s.schematics + {SchematicKey(a)}
    ensures r.1.Success? ==> r.1.value == Capture(world, a.pos1.value, a.pos2.value, SchematicKey(a))
  {
    var stored := s.(schematics := s.schematics + {SchematicKey(a)});
    match run
    case CopyThrows => (s, Failure(GenerationFailed))
    case WriteThrows => (stored, Failure(GenerationFailed))
    case Completes => (stored, Success(Capture(world, a.pos1.value, a.pos2.value, SchematicKey(a))))
  }

  /** `regenerateArena(arena)`: fails, in this order, when the arena is not
      ready for regeneration, when the engine is missing, and when its
      schematic file is missing; otherwise the file is read and pasted with its
      origin at the first corner, which may still fail. Nothing is stored. */
  function RegenerateArena(schematics: set<string>, a: Arena, engineEnabled: bool, pasteOk: bool): (r: Result<Paste, RestoreError>)
    ensures r == Failure(NotReady) <==> !IsRegenerationReady(a)
    ensures r == Failure(EngineUnavailable) <==> IsRegenerationReady(a) && !engineEnabled
    ensures r == Failure(ArtifactMissing) <==>
      IsRegenerationReady(a) && engineEnabled && SchematicKey(a) !in schematics
    ensures r.Success? <==> IsRegenerationReady(a) && engineEnabled && SchematicKey(a) in schematics && pasteOk
    ensures r.Success? ==> r.value.anchor == a.pos1.value && r.value.world == a.pos1.value.world
    ensures r.Success? ==> r.value.key == SchematicKey(a)
  {
    if !IsRegenerationReady(a) then Failure(NotReady)
    else if !engineEnabled then Failure(EngineUnavailable)
    else if SchematicKey(a) !in schematics then Failure(ArtifactMissing)
    else if !pasteOk then Failure(PasteFailed)
    else Success(Paste(a.pos1.value.world, a.pos1.value, SchematicKey(a)))
  }

  /** A capture followed by a restore of the same arena hands the engine the
      file the capture wrote, the world the capture read, and the capture's
      first corner as the paste anchor. */
  lemma CaptureThenRestore(s: Registry, a: Arena)
    requires IsRegenerationReady(a)
    ensures
      var (s', c) := GenerateSchematic(s, a, true, Completes);
      && c.Success?
      && RegenerateArena(s'.schematics, a, true, true) == Success(Paste(c.value.world, c.value.corner1, c.value.key))
  {
  }

  /** As written, a capture made by a player standing in another world than
      the arena's first corner is pasted back into a different world from the
      one it was copied from. */
  lemma CaptureAsWrittenRestoresIntoOtherWorld(s: Registry, a: Arena, playerWorld: string)
    requires IsRegenerationReady(a)
    requires playerWorld != a.pos1.value.world
    ensures
      var (s', c) := GenerateSchematicAsWritten(s, a, playerWorld, true, Completes);
      && c.Success?
      && RegenerateArena(s'.schematics, a, true, true).Success?
      && RegenerateArena(s'.schematics, a, true, true).value.world != c.value.world
  {
  }

  /** Deleting an arena removes the file its restore would read, so a later
      restore of that arena definition reports the file missing. */
  lemma DeleteThenRestoreMissesArtifact(s: Registry, name: string, pasteOk: bool)
    requires name in s.arenas && IsRegenerationReady(s.arenas[name])
    ensures RegenerateArena(DeleteArena(s, name).0.schematics, s.arenas[name], true, pasteOk) == Failure(ArtifactMissing)
  {
  }
}

=== FILE: seqs.dfy ===
/** Sequence facts used for the `List<String>` of available arena names. */
module Seqs {

  /** No element occurs twice. */
  predicate NoDuplicates<T(==)>(s: seq<T>) {
    forall i, j :: 0 <= i < j < |s| ==> s[i] != s[j]
  }

  /** `List.remove(Object)`: drops the first occurrence of `x`, if there is one,
      and keeps the order of everything else. */
  function RemoveFirst<T(==)>(s: seq<T>, x: T): (r: seq<T>)
    ensures multiset(r) == multiset(s) - multiset{x}
    ensures NoDuplicates(s) ==> NoDuplicates(r) && x !in r
  {
    if |s| == 0 then []
    else if s[0] == x then
      assert s == [s[0]] + s[1..];
      if NoDuplicates(s) then HeadNotInTail(s); s[1..] else s[1..]
    else
      var rest := RemoveFirst(s[1..], x);
      assert s == [s[0]] + s[1..];
      if NoDuplicates(s) then
        HeadNotInTail(s);
        ConsNoDuplicates(s[0], rest);
        [s[0]] + rest
      else
        [s[0]] + rest
  }

  /** Putting an element in front of a duplicate-free sequence that lacks it
      keeps it duplicate-free. */
  lemma ConsNoDuplicates<T>(h: T, t: seq<T>)
    requires NoDuplicates(t) && h !in multiset(t)
    ensures NoDuplicates([h] + t)
  {
  }

  /** Membership after `RemoveFirst`: nothing new appears, and every other
      element stays. */
  lemma RemoveFirstMembership<T>(s: seq<T>, x: T, y: T)
    ensures y in RemoveFirst(s, x) ==> y in s
    ensures y in s && y != x ==> y in RemoveFirst(s, x)
  {
    var r := RemoveFirst(s, x);
    assert y in r <==> y in multiset(r);
    assert y in s <==> y in multiset(s);
  }

  /** `RemoveFirst(s, x)` lists every element other than `x` exactly when `s` does. */
  lemma RemoveFirstKeepsOthers<T>(s: seq<T>, x: T)
    ensures forall y :: y != x ==> (y in RemoveFirst(s, x) <==> y in s)
  {
    forall y | y != x {
      RemoveFirstMembership(s, x, y);
    }
  }

  /** The position of the first occurrence of `x` in `s`. */
  function FirstIndex<T(==)>(s: seq<T>, x: T): (i: nat)
    requires x in s
    ensures i < |s| && s[i] == x && x !in s[..i]
  {
    if s[0] == x then 0
    else
      var j := FirstIndex(s[1..], x);
      assert s[..j + 1] == [s[0]] + s[1..][..j];
      j + 1
  }

  /** `RemoveFirst` is `List.remove(Object)`: a sequence without `x` is
      returned unchanged; otherwise exactly the first occurrence is cut out
      and everything before and after it keeps its place. */
  lemma RemoveFirstIsListRemove<T>(s: seq<T>, x: T)
    ensures x !in s ==> RemoveFirst(s, x) == s
    ensures x in s ==>
      var i := FirstIndex(s, x);
      RemoveFirst(s, x) == s[..i] + s[i + 1..]
  {
    if x in s {
      RemoveFirstCutsFirst(s, x);
    } else {
      RemoveFirstAbsent(s, x);
    }
  }

  lemma {:induction false} RemoveFirstAbsent<T>(s: seq<T>, x: T)
    requires x !in s
    ensures RemoveFirst(s, x) == s
  {
    if |s| > 0 {
      assert s == [s[0]] + s[1..];
      RemoveFirstAbsent(s[1..], x);
      RemoveFirstStep(s, x);
    }
  }

  lemma RemoveFirstCutsFirst<T>(s: seq<T>, x: T)
    requires x in s
    ensures RemoveFirst(s, x) == s[..FirstIndex(s, x)] + s[FirstIndex(s, x) + 1..]
  {
    RemoveFirstCutsAt(s, x, FirstIndex(s, x));
  }

  /** Cutting at a position that holds `x` with no `x` before it. */
  lemma {:induction false} RemoveFirstCutsAt<T>(s: seq<T>, x: T, i: nat)
    requires i < |s| && s[i] == x && x !in s[..i]
    ensures RemoveFirst(s, x) == s[..i] + s[i + 1..]
  {
    if i == 0 {
      assert s[..0] + s[1..] == s[1..];
    } else {
      ShiftCut(s, x, i);
      RemoveFirstCutsAt(s[1..], x, i - 1);
      RemoveFirstStep(s, x);
    }
  }

  /** Past a head other than `x`, `RemoveFirst` works on the tail. */
  lemma RemoveFirstStep<T>(s: seq<T>, x: T)
    requires |s| > 0 && s[0] != x
    ensures RemoveFirst(s, x) == [s[0]] + RemoveFirst(s[1..], x)
  {
  }

  /** A cut at `i > 0` in `s` is a cut at `i - 1` in its tail. */
  lemma ShiftCut<T>(s: seq<T>, x: T, i: nat)
    requires 0 < i < |s| && s[i] == x && x !in s[..i]
    ensures s[0] != x && s[1..][i - 1] == x && x !in s[1..][..i - 1]
    ensures s[..i] + s[i + 1..] == [s[0]] + (s[1..][..i - 1] + s[1..][i..])
  {
    assert s[0] in s[..i];
    assert s[1..][..i - 1] == s[1..i];
    assert forall y :: y in s[1..i] ==> y in s[..i];
    assert s[..i] == [s[0]] + s[1..][..i - 1];
    assert s[i + 1..] == s[1..][i..];
  }

  /** In a duplicate-free sequence the head does not occur in the tail. */
  lemma HeadNotInTail<T>(s: seq<T>)
    requires |s| > 0 && NoDuplicates(s)
    ensures s[0] !in s[1..] && NoDuplicates(s[1..])
  {
  }
}

=== FILE: text.dfy ===
/** String operations of `java.lang.String` that the arena catalogue relies on. */
module Text {

  /** `s.endsWith(suffix)`. */
  predicate EndsWith(s: string, suffix: string) {
    |suffix| <= |s| && s[|s| - |suffix|..] == suffix
  }

  /** `s.startsWith(prefix)`. */
  predicate StartsWith(s: string, prefix: string) {
    |prefix| <= |s| && s[..|prefix|] == prefix
  }

  /** `s.replace(target, "")`: one left-to-right scan that removes every
      non-overlapping occurrence of `target`. The scan does not look again at
      what the removal joins together, so `".y.ymlml"` becomes `".yml"`. */
  function RemoveAll(s: string, target: string): (r: string)
    requires |target| > 0
    ensures |r| <= |s|
    ensures !StartsWith(s, target) && |s| > 0 ==> |r| > 0 && r[0] == s[0]
    decreases |s|
  {
    if |s| == 0 then ""
    else if StartsWith(s, target) then RemoveAll(s[|target|..], target)
    else [s[0]] + RemoveAll(s[1..], target)
  }

  /** `target` occurs in `s` at no position before its last `|target|` characters. */
  predicate OnlyAtEnd(s: string, target: string) {
    forall i :: 0 <= i < |s| - |target| ==> !StartsWith(s[i..], target)
  }

  /** When `target` occurs in `s` only as its suffix, `replace(target, "")`
      takes off exactly that suffix. */
  lemma {:induction false} RemoveAllSuffixOnly(s: string, target: string)
    requires |target| > 0 && EndsWith(s, target) && OnlyAtEnd(s, target)
    ensures RemoveAll(s, target) == s[..|s| - |target|]
    decreases |s|
  {
    if |s| == |target| {
      assert s == target;
      assert StartsWith(s, target);
      assert s[|target|..] == "";
    } else {
      assert !StartsWith(s[0..], target);
      assert s[0..] == s;
      var t := s[1..];
      assert EndsWith(t, target) by {
        assert t[|t| - |target|..] == s[|s| - |target|..];
      }
      forall i | 0 <= i < |t| - |target| ensures !StartsWith(t[i..], target) {
        assert t[i..] == s[i + 1..];
      }
      RemoveAllSuffixOnly(t, target);
      assert s[..|s| - |target|] == [s[0]] + t[..|t| - |target|];
    }
  }

  /** `Character.toLowerCase` restricted to ASCII letters. */
  function LowerChar(c: char): char {
    if 'A' <= c <= 'Z' then (c as int - 'A' as int + 'a' as int) as char else c
  }

  /** `String.toLowerCase()` restricted to ASCII letters. */
  function ToLower(s: string): (r: string)
    ensures |r| == |s|
  {
    seq(|s|, i requires 0 <= i < |s| => LowerChar(s[i]))
  }
}

=== FILE: wrappers.dfy ===
/** Failure-carrying values shared by the arena catalogue and the kit editor.
    `None` stands for a Java `null` reference; `Failure` for a thrown exception. */
module Wrappers {

  datatype Option<T> = None | Some(value: T) {
    function GetOr(default: T): T {
      match this
      case Some(v) => v
      case None => default
    }
  }

  datatype Result<T, E> = Success(value: T) | Failure(error: E)
}
